=== FILE: README.md ===
# sunshine permission policy, in Dafny

A model of the permission policy of `sunshine`. The tool walks directory trees
and warns about SSH-related files and directories whose kind or permission
bits differ from the expected ones: each rule expects one exact mode, so a mode
stricter than expected draws a warning just as a looser one does. Two scanners
are modelled.

- **The current scanner (`sunshine.go`).**
  - Seven fixed rules run, in a fixed order, on every visited entry: `/etc` and `/etc/ssh`, `.ssh`, `.ssh/config`, `.ssh/id_*` keys, `authorized_keys`, `known_hosts`, and the home directory.
  - Each rule first checks the entry's kind (file or directory), then compares `mode % 0o1000` with the mode it expects. It emits the texts `"<path>: expected <kind>, got <other kind>"` and `"<path>: expected chmod %04o, got %04o"`.
  - The per-entry driver `Walk` does two things before running the rules:
    - an entry that `os.Stat` no longer finds ends the traversal with `"<path>: not found"`;
    - for a symbolic link, the rules are shown the `os.Readlink` target as the path. They still judge the link's own name, kind and mode.
  - `filepath.Walk` folds `Walk` over one root's entries and stops at the first error. `Illuminate` resolves the home directory once. If that fails, no root is scanned. Otherwise every root is scanned and every error except `io.EOF` is reported.
- **The older scanner (`carrots.go`).**
  - Three rules (`.ssh`, `authorized_keys`, `known_hosts`) check the permission bits only.
  - An accumulator appends their warnings for every visited entry and never fails.
  - `Report` returns 1 exactly when there is a warning.

## Layout

- `octal.dfy` (`Octal`): Go's `%o` / `%04o` rendering of permission bits. It also reads a numeral back, which gives the round trip.
- `filesystem.dfy` (`FileSystem`):
  - the 32-bit `os.FileMode`, with `ModeDir` at bit 31, `ModeSymlink` at bit 27, and the permission bits `mode % 0o1000`;
  - the per-entry answers of the operating system (`os.Lstat`, `os.Stat`, `os.Readlink`), held as data.
- `paths.dfy` (`Paths`): the Unix `filepath.Dir` / `filepath.Clean` / `path.Base` arithmetic behind the scanner's "parent directory name".
- `patterns.dfy` (`Patterns`): the key-name patterns `^id_.+$` and `^id_.+\.pub$` as RE2 reads them. Each is proved equal to a literal reading of its regular expression.
- `messages.dfy` (`Messages`): the warning and error texts, and the facts that tell them apart.
- `sunshine.dfy` (`Sunshine`): the current scanner, from the rules up to `Illuminate`.
- `policy.dfy` (`Policy`): an independent, table-driven statement of the same policy. The nine rows say what each selects and which kind and mode it expects. The seven hand-written rules are proved to emit exactly what the table emits, in the same order.
- `carrots.dfy` (`Carrots`): the older scanner.
- `seqs.dfy` (`Seqs`): flattening a sequence of warning lists, used for the older scanner's accumulator.
- `agreement.dfy` (`Agreement`): how the older scanner's rules relate to the current scanner's.
- `scenarios.dfy` (`Scenarios`): worked entries. Examples are a `.ssh` directory with mode 0755, a `known_hosts` directory, a link, a vanished entry, and a failed home-directory lookup.
- `wrappers.dfy` (`Wrappers`): `Option`.

## Behaviour worth knowing

- There are no rules about owner-bit masks. Every rule compares the full permission bits with one exact mode.
- A symbolic link is judged by its own `os.Lstat` information: its name, its kind and its permission bits. Only the path in the warning is replaced by the `os.Readlink` text (`Sunshine.SymlinkJudgedByOwnInfo`).
- A directory named `known_hosts` draws the kind warning and then the mode warning, because the two checks are independent (`Scenarios.KnownHostsDirectory`).
- `ScanHome` compares an entry's base name with the whole home-directory path. When that path contains a slash, it never matches an entry whose name has no slash (`Sunshine.HomeRuleSilentForAbsoluteHome`). The model keeps the comparison as written.

## Model

| member | source | states |
|---|---|---|
| Octal.OctalDigits | sunshine.go:86 | The `%o` numeral of a value is non-empty and has no leading zero. Below 0o10, 0o100 and 0o1000 it has at most one, two and three digits. |
| Octal.OctalDigitsParse | sunshine.go:86 | The `%o` numeral consists of octal digits and reads back as the value it renders. |
| Octal.ParseLeadingZeros | sunshine.go:86 | Zero padding does not change the value a numeral denotes. |
| Octal.FormatOctal | sunshine.go:86 | `%0<width>o` is at least `width` characters long. It is exactly `width` long unless the bare numeral is longer. |
| Octal.FormatOctalParse | sunshine.go:86 | The padded numeral reads back as the rendered value, so `%04o` loses nothing. |
| Octal.FourDigitPermission | sunshine.go:83-86 | Every permission value renders under `%04o` as exactly four digits, the first being '0'. |
| Octal.FormatOctalInjective | sunshine.go:86 | Different values never share a `%04o` rendering. |
| Octal.ThreeDigitNumeral | sunshine.go:86 | Under `%04o` a value with three octal digits, the first not zero, prints as '0' followed by exactly those digits. |
| Octal.ExpectedModeNumerals | sunshine.go:82-86 | The expected modes 0o700, 0o755, 0o600, 0o644 and 0o400 print as "0700", "0755", "0600", "0644" and "0400". |
| FileSystem.IsDir | sunshine.go:78 | `info.IsDir()` (also at sunshine.go lines 94, 113, 135, 161, 177 and 193), the test of `ModeDir` (bit 31). The test is exact for every 32-bit mode (`FileSystem.DirBitIsTopBit`). `Sunshine.SymlinkJudgedByOwnInfo` shows the rules read the kind only through it. |
| FileSystem.DirBitIsTopBit | sunshine.go:78 | In a mode below 2^32, the directory bit is set exactly when the mode is at least 2^31. |
| FileSystem.IsSymlink | sunshine.go:217 | The branch test `info.Mode() & os.ModeSymlink != 0` on bit 27, exact for every 32-bit mode (`FileSystem.SymlinkBitIsBit27`). `Sunshine.SymlinkJudgedByOwnInfo` and `Scenarios.LinkWarningNamesTarget` use it. |
| FileSystem.SymlinkBitIsBit27 | sunshine.go:217 | The link bit is set exactly when the mode's residue below 2^28 is at least 2^27, so no other bit affects the test. |
| FileSystem.Perm | sunshine.go:83 | The observed mode `mode % 0o1000` is always below 0o1000. |
| FileSystem.DirMode | sunshine.go:78-83 | A directory mode with given permission bits is a directory, not a link, and has those bits. |
| FileSystem.FileModeOf | sunshine.go:78-83 | A regular-file mode with given permission bits is neither directory nor link, and has those bits. |
| FileSystem.WithoutSymlinkBit | sunshine.go:217 | Clearing the link bit keeps the directory bit and the permission bits. |
| Paths.LastSlash | sunshine.go:110 | Gives the position of the last '/', or -1 when there is none. No slash follows it. |
| Paths.Elements | sunshine.go:110 | Splitting at '/' gives at least one element, and every element is slash-free. |
| Paths.JoinElements | sunshine.go:110 | Joining a path's elements with '/' restores the path. |
| Paths.ElementsJoin | sunshine.go:110 | Splitting a join of slash-free elements restores the elements. |
| Paths.Resolve | sunshine.go:110 | Cleaning leaves no empty or "." element. Every survivor is ".." or an element of the input. |
| Paths.StripTrailingSlashes | sunshine.go:110 | Removes exactly the trailing slashes and keeps the prefix. |
| Paths.Clean | sunshine.go:110 | `filepath.Clean` never returns the empty path, and a rooted path stays rooted. `Paths.BaseOfClean` gives its last element. |
| Paths.Dir | sunshine.go:110 | `filepath.Dir` never returns the empty path. |
| Paths.Base | sunshine.go:110 | `path.Base` is "/" or a single non-empty, slash-free element. |
| Paths.ParentName | sunshine.go:110 | The parent name is "/" or a single non-empty, slash-free element. `Paths.ParentNameIsLastCleanElement` states exactly which one. |
| Paths.BaseOfName | sunshine.go:110 | `path.Base` of a slash-free, non-empty name is the name. |
| Paths.BaseOfChild | sunshine.go:110 | `path.Base("a/name")` is `name`. |
| Paths.BaseOfClean | sunshine.go:110 | The base of a cleaned path is its last surviving element, "/" for the root, or "." for an empty path. |
| Paths.ParentNameIsLastCleanElement | sunshine.go:110 | `path.Base(filepath.Dir(p))` is the last element surviving the cleaning of p's directory part. |
| Paths.ParentNameWithoutSlash | sunshine.go:110-112 | A path without a slash has parent ".", so the `config` and key rules never select it. |
| Paths.ElementsOfChild | sunshine.go:110 | Splitting `a/b` gives a's elements followed by b. |
| Paths.ResolveEndsWithName | sunshine.go:110 | Cleaning elements that end in a real name and an empty element leaves that name last. |
| Paths.ElementsOfDirPart | sunshine.go:110 | The directory part `d + c + "/"` splits into elements ending in c and an empty element. |
| Paths.ParentNameOfChild | sunshine.go:132-134 | Any `…/c/n` has parent name c when c is a real name, so `…/.ssh/id_rsa` lies in `.ssh`. |
| Paths.ParentNameFromPath | sunshine.go:110-112 | Every parent name is ".", "/", ".." or one of the path's own elements. |
| Paths.LastResolvedIsElement | sunshine.go:110 | The last cleaned element of the directory part is ".." or an element of the path. |
| Patterns.IsKeyName | sunshine.go:15 | The key-name test. `Patterns.KeyNameIsRegex` proves it equals the RE2 reading of `^id_.+$`. |
| Patterns.IsPublicKeyName | sunshine.go:18 | The public-key-name test. `Patterns.PublicKeyNameIsRegex` proves it equals the RE2 reading of `^id_.+\.pub$`. |
| Patterns.KeyNameIsRegex | sunshine.go:15 | `IsKeyName` holds exactly when the name is "id_" followed by one or more non-newline characters. |
| Patterns.PublicKeyNameIsRegex | sunshine.go:18 | `IsPublicKeyName` holds exactly when the name is "id_", one or more non-newline characters, then ".pub". |
| Patterns.PublicKeyIsKey | sunshine.go:131-141 | Every public-key name is a key name, so the key rule sees every public key. |
| Patterns.KeyNameInitial | sunshine.go:15 | A name that does not start with 'i' is no key name. |
| Patterns.BarePubSuffixIsPrivate | sunshine.go:141-153 | "id_.pub" is a key name but not a public-key name, so it is held to 0600. |
| Patterns.NewlineDefeatsKeyPattern | sunshine.go:15 | A newline right after "id_" defeats `.`, so such a name is no key name. |
| Messages.KindWarning | sunshine.go:79 | The kind-mismatch text. `Messages.KindWarningsDiffer` and `Messages.KindWarningIsNotChmodWarning` prove it is told apart from the other texts. |
| Messages.ChmodWarning | sunshine.go:86 | The mode-mismatch text. `Messages.ChmodWarningLayout` and `Messages.ChmodWarningInjective` prove its layout and that it determines its path and modes. |
| Messages.NotFoundMessage | sunshine.go:69 | The missing-entry error text. `Scenarios.VanishedEntryEndsRoot` proves it ends a root. |
| Messages.ChmodWarningLayout | sunshine.go:86 | A mode warning is the path followed by a fixed 31-character tail. The two four-digit numerals sit at fixed offsets in that tail. |
| Messages.ChmodWarningInjective | sunshine.go:86 | A mode warning determines its path, expected mode and observed mode. |
| Messages.KindWarningIsNotChmodWarning | sunshine.go:78-86 | A kind warning never equals a mode warning for the same path. |
| Messages.KindWarningsDiffer | sunshine.go:79 | "expected file" and "expected directory" warnings for a path differ. |
| Sunshine.ReportsIsDeterministic | sunshine.go:78-87 | The shape a rule must emit (kind warning iff kind wrong, mode warning iff mode differs, kind first) allows one output only. |
| Sunshine.EmitsIsDeterministic | sunshine.go:78-87 | At most one warning list has a kind warning iff the kind is bad, then a mode warning iff the mode is bad. |
| Sunshine.KindOf | sunshine.go:78 | The kind each rule compares (here and at sunshine.go lines 94, 113, 135, 161, 177 and 193): a directory exactly when `info.IsDir()` holds. |
| Sunshine.Emit | sunshine.go:78-87 | Emits the kind warning exactly when the kind is wrong, the mode warning exactly when the mode is wrong, nothing else, and the kind warning first. |
| Sunshine.Audit | sunshine.go:78-87 | A selecting rule's check reports a kind mismatch and a mode mismatch independently. It emits at most two warnings. |
| Sunshine.ScanEtcSSH | sunshine.go:76-89 | Silent unless the path is "/etc" or "/etc/ssh". Otherwise it expects a directory with mode 0755. |
| Sunshine.ScanUserSSH | sunshine.go:92-105 | Silent unless the name is ".ssh". Otherwise it expects a directory with mode 0700. |
| Sunshine.ScanSSHConfig | sunshine.go:108-125 | Silent unless the name is "config" and the parent is ".ssh". Otherwise it expects a file with mode 0400. |
| Sunshine.KeyPerm | sunshine.go:141-153 | Expects 0644 exactly for public-key names and 0600 exactly for the other key names. |
| Sunshine.ScanSSHKeys | sunshine.go:128-156 | Silent unless the name matches `^id_.+$` and the parent is ".ssh". Otherwise it expects a file with mode 0644 for public keys and 0600 for the rest. |
| Sunshine.ScanSSHAuthorizedKeys | sunshine.go:159-172 | Silent unless the name is "authorized_keys". Otherwise it expects a file with mode 0600. |
| Sunshine.ScanSSHKnownHosts | sunshine.go:175-188 | Silent unless the name is "known_hosts". Otherwise it expects a file with mode 0644. |
| Sunshine.ScanHome | sunshine.go:191-204 | Silent unless the base name equals the home path as written. Otherwise it expects a directory with mode 0755. |
| Sunshine.ScanEntry | sunshine.go:227-233 | The seven rules' warnings for one entry, in source order. `Policy.ScannerFollowsCatalog` proves it equals the table's verdict, and `Sunshine.AtMostSixWarnings` bounds it. |
| Sunshine.AtMostSixWarnings | sunshine.go:227-233 | The five name rules select disjoint names, so one entry draws at most six warnings. |
| Sunshine.NameRulesOnly | sunshine.go:227-233 | Away from /etc, a name that is neither home, `config` nor a key name is judged by the `.ssh`, `authorized_keys` and `known_hosts` rules alone. |
| Sunshine.HomeRuleSilentForAbsoluteHome | sunshine.go:192 | With a home path containing '/', the home rule never fires for a slash-free name. |
| Sunshine.WalkError.Message | sunshine.go:253-255 | The `err.Error()` text the session reports: "<path>: not found" for a missing entry (sunshine.go:69), "EOF" for `io.EOF` (which `Sunshine.ScanRoot` filters out), and the operating system's message otherwise. `Scenarios.VanishedEntryEndsRoot` proves the not-found text ends a root. |
| Sunshine.RulePath | sunshine.go:217-225 | The path the rules are shown: the `Readlink` target for a link, otherwise the visited path. `Sunshine.SymlinkJudgedByOwnInfo` proves a link is judged at that path with its own information. |
| Sunshine.Walk | sunshine.go:208-235 | A vanished entry gives "not found" and no rule runs. A failing `Readlink` gives its error and no warning. Otherwise the seven rules run on the link target (for links) or the path, and nil is returned. |
| Sunshine.SymlinkJudgedByOwnInfo | sunshine.go:217-225 | A link is judged like a plain entry at its target path that carries the link's own name, kind and permission bits. |
| Sunshine.RulesSeeNameKindAndPerm | sunshine.go:227-233 | The rules depend on the mode only through the directory bit and the permission bits. |
| Sunshine.Steps | sunshine.go:253 | Every entry of a root is walked, one step per entry, in visiting order. |
| Sunshine.StepsAppend | sunshine.go:253 | Walking a split root walks the two parts one after the other. |
| Sunshine.Traverse | sunshine.go:253 | A root has no error iff no step failed. Any error is that of some step. |
| Sunshine.TraverseAppend | sunshine.go:253 | After an error-free prefix the traversal continues and concatenates warnings. |
| Sunshine.TraverseStopsAtError | sunshine.go:253 | Steps after the first error change nothing (fail-fast). |
| Sunshine.TraverseSnoc | sunshine.go:253 | One more step after an error-free prefix adds its warnings and its error. |
| Sunshine.TraverseFirstError | sunshine.go:253 | With step k failing first, the result is the earlier warnings, then step k's, and step k's error. |
| Sunshine.TraverseSilent | sunshine.go:253 | Silent, error-free steps give an empty, error-free result. |
| Sunshine.TraverseLoop | sunshine.go:253 | The loop that stops at the first error computes exactly the fold. |
| Sunshine.WalkRoot | sunshine.go:253 | A root ends without error iff every entry passes `Walk`'s checks. |
| Sunshine.WalkRootFirstError | sunshine.go:253 | The first failing entry ends the root with its error. The warnings of earlier entries are kept, and later entries contribute nothing. |
| Sunshine.WalkRootKeepsEarlierWarnings | sunshine.go:253-255 | The warnings of an error-free prefix are a prefix of the root's warnings. |
| Sunshine.WalkRootConforming | sunshine.go:253 | A root of silent, passing entries yields nothing. |
| Sunshine.ScanRoot | sunshine.go:253-255 | The root's warnings are kept. Its error is reported unless it is `io.EOF`. |
| Sunshine.Illuminate | sunshine.go:239-256 | A failed home lookup scans nothing and returns the error. Otherwise each root is scanned with that home path. |
| Sunshine.SessionErrors | sunshine.go:253-255 | An error is reported iff some root ended with it, and there are no more errors than roots. |
| Sunshine.SessionErrorsOfOne | sunshine.go:253-255 | A failing root sends its error exactly once and a clean root sends none. |
| Sunshine.SessionErrorsAppend | sunshine.go:253-255 | The errors of a + b are the errors of a followed by those of b, so each failing root contributes exactly one error (listed by root; the goroutines may send them in any order). |
| Policy.Check | sunshine.go:78-87 | A selecting row is silent iff the kind and the permission bits are right. It emits at most two warnings. |
| Policy.Fire | sunshine.go:77 | A row that does not select the entry is silent. |
| Policy.FireWarnsIff | sunshine.go:77-87 | A row emits w iff it selects the entry and w is the warning of a check the entry fails. |
| Policy.EvaluateFirst | sunshine.go:227-233 | The first n rows emit at most 2n warnings. |
| Policy.EvaluateWarnsIff | sunshine.go:227-233 | A warning is emitted iff some selecting row owes it. |
| Policy.ConformingIsSilent | sunshine.go:227-233 | An entry meeting every selecting row draws nothing. |
| Policy.CatalogInOrder | sunshine.go:227-233 | The table's verdict is the rows' verdicts in table order. |
| Policy.EtcRuleIsRows | sunshine.go:76-89 | `ScanEtcSSH` equals the `/etc` and `/etc/ssh` rows. |
| Policy.SshDirRuleIsRow | sunshine.go:92-105 | `ScanUserSSH` equals the `.ssh` row. |
| Policy.ConfigRuleIsRow | sunshine.go:108-125 | `ScanSSHConfig` equals the `config` row. |
| Policy.KeyRuleIsRows | sunshine.go:128-156 | `ScanSSHKeys` equals the private-key and public-key rows. |
| Policy.AuthorizedKeysRuleIsRow | sunshine.go:159-172 | `ScanSSHAuthorizedKeys` equals the `authorized_keys` row. |
| Policy.KnownHostsRuleIsRow | sunshine.go:175-188 | `ScanSSHKnownHosts` equals the `known_hosts` row. |
| Policy.HomeRuleIsRow | sunshine.go:191-204 | `ScanHome` equals the home row. |
| Policy.ScannerFollowsCatalog | sunshine.go:227-233 | The seven rules in their fixed order emit exactly the table's warnings, in order. |
| Policy.ScannerWarnsIff | sunshine.go:227-233 | The scanner emits w for an entry iff a table row selects it and the entry fails that row's check with warning w. |
| Policy.ScannerSilentOnConforming | sunshine.go:227-233 | An entry meeting every row that selects it passes silently. |
| Carrots.SpelledOutMode | carrots.go:23 | A format string with the mode spelled out gives the same text as `%04o` of that mode. |
| Carrots.ScanSSH | carrots.go:18-28 | At most one warning. There is one iff the name is ".ssh" and the mode is not 0700, whatever the kind. |
| Carrots.ScanAuthorizedKeys | carrots.go:31-41 | At most one warning. There is one iff the name is "authorized_keys" and the mode is not 0600. |
| Carrots.ScanKnownHosts | carrots.go:44-54 | At most one warning. There is one iff the name is "known_hosts" and the mode is not 0644. |
| Carrots.Found | carrots.go:59-61 | One entry gets at most one warning, and none iff it conforms to the rule for its name. |
| Carrots.SshRuleIsChmodWarning | carrots.go:23 | The `.ssh` warning reads exactly like the current scanner's "expected chmod 0700" warning. |
| Carrots.AuthorizedKeysRuleIsChmodWarning | carrots.go:36 | The `authorized_keys` warning reads exactly like the current scanner's "expected chmod 0600" warning. |
| Carrots.KnownHostsRuleIsChmodWarning | carrots.go:49 | The `known_hosts` warning reads exactly like the current scanner's "expected chmod 0644" warning. |
| Carrots.FoundIsChmodWarning | carrots.go:59-61 | A non-conforming entry's only warning is the mode warning for its name's expected mode. |
| Carrots.FoundOwes | carrots.go:59-61 | An entry's warnings are exactly the ones it owes. |
| Carrots.Walk | carrots.go:58-64 | The callback always returns nil. The old warnings are a prefix of the new, with at most one added, and none added iff the entry conforms. |
| Carrots.WalkAll | carrots.go:71 | Across a walk the accumulator only grows, by at most one warning per entry. |
| Carrots.WalkAllFlattens | carrots.go:58-64 | After a walk the accumulator holds its initial warnings, then every entry's own warnings in visiting order. |
| Carrots.FoundAll | carrots.go:59-61 | Lists every entry's own warnings, one list per entry in visiting order. |
| Carrots.WalkAllSnoc | carrots.go:58-64 | One more entry appends exactly that entry's warnings to the accumulator. |
| Carrots.ScanStep | carrots.go:68-77 | Scanning one more entry appends exactly its warnings. |
| Seqs.FlattenAppend | carrots.go:59-61 | Flattening a concatenation is concatenating the flattened parts. |
| Seqs.FlattenHas | carrots.go:59-61 | An item is in the flattened list iff it is in one of the lists. |
| Seqs.FlattenEmpty | carrots.go:59-61 | The flattened list is empty iff every list is empty. |
| Carrots.Scan | carrots.go:68-77 | A root's scan holds at most one warning per visited entry. `Carrots.ScanIsFlatten` and `Carrots.ScanWarnsIff` give its contents. |
| Carrots.ScanIsFlatten | carrots.go:68-77 | A root's scan is every entry's own warnings, in visiting order. |
| Carrots.ScanWarnsIff | carrots.go:68-77 | A warning is in the scan iff some entry owes it. |
| Carrots.ScanEmptyIff | carrots.go:68-77 | The scan is empty iff every entry conforms. |
| Carrots.ScanAppend | carrots.go:68-77 | Scanning a split root is scanning the parts one after the other. |
| Carrots.AccumulatorIsPrefix | carrots.go:58-64 | A non-empty starting accumulator only puts its warnings in front. |
| Carrots.ScanLoop | carrots.go:68-77 | The mutable accumulator loop computes the scan. |
| Carrots.Report | carrots.go:83-95 | Prints the scan's warnings and returns 0 or 1, with 0 iff every entry conforms. |
| Agreement.SshRulesAgree | carrots.go:18-28 | For directories both `.ssh` rules agree. On a non-directory the current rule puts the kind warning before the older rule's output. |
| Agreement.AuthorizedKeysRulesAgree | carrots.go:31-41 | For files both `authorized_keys` rules agree. On a directory the current rule adds the kind warning first. |
| Agreement.KnownHostsRulesAgree | carrots.go:44-54 | For files both `known_hosts` rules agree. On a directory the current rule adds the kind warning first. |
| Agreement.OlderWarningsKept | carrots.go:58-64 | Every warning the older scanner gives an entry, the current scanner gives too, for any home path. |
| Scenarios.SshDirectoryText | sunshine.go:98-102 | The `.ssh` example's warning is "<path>: expected chmod 0700, got 0755". |
| Scenarios.AuthorizedKeysText | sunshine.go:165-169 | The `authorized_keys` example's warning is "<path>: expected chmod 0600, got 0644". |
| Scenarios.FileExpectedText | sunshine.go:178 | The kind warning for a directory where a file is expected is "<path>: expected file, got directory". |
| Scenarios.RsaPublicKeyName | sunshine.go:18 | "id_rsa.pub" matches the public-key pattern. |
| Scenarios.PlainWalk | sunshine.go:227-234 | An existing non-link entry is judged at its own path with no error. |
| Scenarios.SshDirectoryTooOpen | sunshine.go:92-105 | A `.ssh` directory with mode 0755 draws exactly the warning "expected chmod 0700, got 0755". |
| Scenarios.AuthorizedKeysTooOpen | sunshine.go:159-172 | An `authorized_keys` file with mode 0644 draws exactly "expected chmod 0600, got 0644". |
| Scenarios.PublicKeyTooClosed | sunshine.go:128-156 | `…/.ssh/id_rsa.pub` with mode 0600 draws exactly the 0644 mode warning. |
| Scenarios.EtcSshTooClosed | sunshine.go:76-89 | `/etc/ssh` with mode 0700 draws exactly the 0755 mode warning. |
| Scenarios.KnownHostsDirectory | sunshine.go:175-188 | A `known_hosts` directory with mode 0755 draws the kind warning, then the 0644 mode warning. |
| Scenarios.LinkWarningNamesTarget | sunshine.go:217-233 | A 0777 link named `authorized_keys` is judged by its own mode, and the warning names the link target. |
| Scenarios.VanishedEntryEndsRoot | sunshine.go:65-73 | A vanished first entry ends its root with "<path>: not found" and no warnings, whatever its information and `Readlink` answer. |
| Scenarios.OlderScannerIgnoresKind | carrots.go:18-28 | A regular file named `.ssh` with mode 0700 passes the older scanner. The current scanner reports its kind. |
| Scenarios.HomeFailureScansNothing | sunshine.go:240-244 | A failed home lookup scans no root. |

## Left out

- Concurrency in `Illuminate`:
  - the goroutine per root, the wait group, and the unbuffered warning, error, debug and done channels (sunshine.go:246-262);
  - the resulting interleaving of messages.
  Each root is a sequential fold, and the session keeps the results root by root.
- Debug messages (sunshine.go:209-211), `fmt.Println` in `Report`, `log.Print` in the older `Scan`, and both command-line front ends. These are output and argument plumbing.
- Calls to the operating system (`os.Lstat`, `os.Stat`, `os.Readlink`, `os.UserHomeDir`) and `filepath.Walk`'s directory reading. Their answers are inputs:
  - each visited entry carries its `Lstat` information and its `Stat` and `Readlink` outcomes;
  - a root is the sequence of entries in the order `filepath.Walk` visits them;
  - the home lookup is a value.
- Go's regular-expression engine. The two patterns are replaced by string predicates, each proved equal to a direct reading of its expression.
- Windows path rules (volume names, backslashes). Paths are Unix paths.
- The `err` argument of the walk callbacks, which both scanners ignore. `filepath.Walk` passes a nil `FileInfo` for any entry whose `os.Lstat` fails. The model gives every entry its `os.Lstat` information, so these cases are left out:
  - the older scanner's rules read `info.Name()` first (carrots.go:19) and so fail on a nil `FileInfo`;
  - the current scanner checks `os.Stat` before it reads the information. It returns "<path>: not found" for a missing entry with any information; the model covers that (`Scenarios.VanishedEntryEndsRoot`). For an entry that still exists, it reads `info.Mode()` (sunshine.go:217) and fails on a nil `FileInfo`.
- Sunshine.WalkRoot: computes every entry's outcome and lets the fold ignore those after the first error. Since the model's `Walk` has no effects, this gives the same result. `Sunshine.TraverseLoop` shows the loop that stops at the first error computes the same value.
- Carrots.Report: the warnings it prints are its result, not output.

=== FILE: agreement.dfy ===
/**
  How the older scanner's three rules relate to the current scanner's rules
  for the same names: on the kind each rule expects they emit the same
  warning, otherwise the current scanner puts a kind-mismatch warning in
  front of it. Every warning of the older scanner is one the current scanner
  also emits for the same entry.
 */
module Agreement {
  import opened FileSystem
  import opened Messages
  import Carrots
  import Sunshine

  /** For `.ssh` the two scanners agree on directories; on anything else the current one adds the kind warning first. */
  lemma SshRulesAgree(pth: string, info: FileInfo)
    ensures IsDir(info.mode) ==> Sunshine.ScanUserSSH(pth, info) == Carrots.ScanSSH(pth, info)
    ensures !IsDir(info.mode) && info.name == ".ssh" ==>
              Sunshine.ScanUserSSH(pth, info) == [KindWarning(pth, Directory)] + Carrots.ScanSSH(pth, info)
  {
    if Carrots.ScanSSH(pth, info) != [] {
      Carrots.SshRuleIsChmodWarning(pth, info);
    }
  }

  /** For `authorized_keys` the two scanners agree on files; on a directory the current one adds the kind warning first. */
  lemma AuthorizedKeysRulesAgree(pth: string, info: FileInfo)
    ensures !IsDir(info.mode) ==> Sunshine.ScanSSHAuthorizedKeys(pth, info) == Carrots.ScanAuthorizedKeys(pth, info)
    ensures IsDir(info.mode) && info.name == "authorized_keys" ==>
              Sunshine.ScanSSHAuthorizedKeys(pth, info) == [KindWarning(pth, File)] + Carrots.ScanAuthorizedKeys(pth, info)
  {
    if Carrots.ScanAuthorizedKeys(pth, info) != [] {
      Carrots.AuthorizedKeysRuleIsChmodWarning(pth, info);
    }
  }

  /** For `known_hosts` the two scanners agree on files; on a directory the current one adds the kind warning first. */
  lemma KnownHostsRulesAgree(pth: string, info: FileInfo)
    ensures !IsDir(info.mode) ==> Sunshine.ScanSSHKnownHosts(pth, info) == Carrots.ScanKnownHosts(pth, info)
    ensures IsDir(info.mode) && info.name == "known_hosts" ==>
              Sunshine.ScanSSHKnownHosts(pth, info) == [KindWarning(pth, File)] + Carrots.ScanKnownHosts(pth, info)
  {
    if Carrots.ScanKnownHosts(pth, info) != [] {
      Carrots.KnownHostsRuleIsChmodWarning(pth, info);
    }
  }

  /** Whatever the older scanner says about an entry, the current scanner says too, for any home directory. */
  lemma OlderWarningsKept(pth: string, info: FileInfo, home: string, w: string)
    requires w in Carrots.Found(pth, info)
    ensures w in Sunshine.ScanEntry(pth, info, home)
  {
    Carrots.FoundIsChmodWarning(pth, info);
    var c := ChmodWarning(pth, Carrots.ExpectedPerm(info.name), Perm(info.mode));
    assert w == c;
    var etc := Sunshine.ScanEtcSSH(pth, info);
    var ssh := Sunshine.ScanUserSSH(pth, info);
    var config := Sunshine.ScanSSHConfig(pth, info);
    var keys := Sunshine.ScanSSHKeys(pth, info);
    var auth := Sunshine.ScanSSHAuthorizedKeys(pth, info);
    var known := Sunshine.ScanSSHKnownHosts(pth, info);
    var homeRule := Sunshine.ScanHome(home, pth, info);
    assert Sunshine.ScanEntry(pth, info, home) == etc + ssh + config + keys + auth + known + homeRule;
    if info.name == ".ssh" {
      assert c in ssh;
    } else if info.name == "authorized_keys" {
      assert c in auth;
    } else {
      assert c in known;
    }
  }
}

=== FILE: carrots.dfy ===
/**
  The older scanner: three name rules that check the permission bits only
  (there is no kind check), an accumulator that appends their warnings for
  every visited entry and never fails, the scan of one root, and the exit
  code of the report.
 */
module Carrots {
  import opened FileSystem
  import opened Octal
  import opened Messages
  import opened Seqs
  import Sunshine

  /**
    The rules spell the expected mode out in their format strings; the text
    is the one `%04o` gives for that mode, so the warnings read exactly like
    the mode-mismatch warnings of the current scanner.
   */
  lemma SpelledOutMode(pth: string, spelled: string, expected: nat, observed: nat)
    requires FormatOctal(expected, 4) == spelled
    ensures pth + (": expected chmod " + spelled + ", got ") + FormatOctal(observed, 4) == ChmodWarning(pth, expected, observed)
  {
    var a := ": expected chmod ";
    var b := ", got ";
    var o := FormatOctal(observed, 4);
    assert pth + (a + spelled + b) == pth + a + spelled + b;
  }

  /** `ScanSSH`: an entry named `.ssh` whose permission bits are not 0700 gets one warning, whatever its kind. */
  function ScanSSH(pth: string, info: FileInfo): (r: seq<string>)
    ensures |r| <= 1
    ensures r != [] <==> info.name == ".ssh" && Perm(info.mode) != Sunshine.SshDirPerm
  {
    if info.name == ".ssh" && Perm(info.mode) != Sunshine.SshDirPerm then
      [pth + ": expected chmod 0700, got " + FormatOctal(Perm(info.mode), 4)]
    else
      []
  }

  /** `ScanAuthorizedKeys`: an entry named `authorized_keys` whose permission bits are not 0600 gets one warning. */
  function ScanAuthorizedKeys(pth: string, info: FileInfo): (r: seq<string>)
    ensures |r| <= 1
    ensures r != [] <==> info.name == "authorized_keys" && Perm(info.mode) != Sunshine.AuthorizedKeysPerm
  {
    if info.name == "authorized_keys" && Perm(info.mode) != Sunshine.AuthorizedKeysPerm then
      [pth + ": expected chmod 0600, got " + FormatOctal(Perm(info.mode), 4)]
    else
      []
  }

  /** `ScanKnownHosts`: an entry named `known_hosts` whose permission bits are not 0644 gets one warning. */
  function ScanKnownHosts(pth: string, info: FileInfo): (r: seq<string>)
    ensures |r| <= 1
    ensures r != [] <==> info.name == "known_hosts" && Perm(info.mode) != Sunshine.KnownHostsPerm
  {
    if info.name == "known_hosts" && Perm(info.mode) != Sunshine.KnownHostsPerm then
      [pth + ": expected chmod 0644, got " + FormatOctal(Perm(info.mode), 4)]
    else
      []
  }

  /** The entry meets the rule for its name, if any rule looks at it. */
  predicate Conforms(info: FileInfo) {
    && (info.name == ".ssh" ==> Perm(info.mode) == Sunshine.SshDirPerm)
    && (info.name == "authorized_keys" ==> Perm(info.mode) == Sunshine.AuthorizedKeysPerm)
    && (info.name == "known_hosts" ==> Perm(info.mode) == Sunshine.KnownHostsPerm)
  }

  /** The expected mode for the three names the rules know. */
  function ExpectedPerm(name: string): nat
    requires name == ".ssh" || name == "authorized_keys" || name == "known_hosts"
  {
    if name == ".ssh" then Sunshine.SshDirPerm
    else if name == "authorized_keys" then Sunshine.AuthorizedKeysPerm
    else Sunshine.KnownHostsPerm
  }

  /** The warnings for one visited entry: the three rules in the order `Walk` runs them. */
  function Found(pth: string, info: FileInfo): (r: seq<string>)
    ensures |r| <= 1
    ensures r == [] <==> Conforms(info)
  {
    ScanSSH(pth, info) + ScanAuthorizedKeys(pth, info) + ScanKnownHosts(pth, info)
  }

  /** The `.ssh` rule's warning reads like the current scanner's mode-mismatch warning. */
  lemma SshRuleIsChmodWarning(pth: string, info: FileInfo)
    requires ScanSSH(pth, info) != []
    ensures ScanSSH(pth, info) == [ChmodWarning(pth, Sunshine.SshDirPerm, Perm(info.mode))]
  {
    ExpectedModeNumerals();
    assert ": expected chmod 0700, got " == ": expected chmod " + "0700" + ", got ";
    SpelledOutMode(pth, "0700", Sunshine.SshDirPerm, Perm(info.mode));
  }

  /** The `authorized_keys` rule's warning reads like the current scanner's mode-mismatch warning. */
  lemma AuthorizedKeysRuleIsChmodWarning(pth: string, info: FileInfo)
    requires ScanAuthorizedKeys(pth, info) != []
    ensures ScanAuthorizedKeys(pth, info) == [ChmodWarning(pth, Sunshine.AuthorizedKeysPerm, Perm(info.mode))]
  {
    ExpectedModeNumerals();
    assert ": expected chmod 0600, got " == ": expected chmod " + "0600" + ", got ";
    SpelledOutMode(pth, "0600", Sunshine.AuthorizedKeysPerm, Perm(info.mode));
  }

  /** The `known_hosts` rule's warning reads like the current scanner's mode-mismatch warning. */
  lemma KnownHostsRuleIsChmodWarning(pth: string, info: FileInfo)
    requires ScanKnownHosts(pth, info) != []
    ensures ScanKnownHosts(pth, info) == [ChmodWarning(pth, Sunshine.KnownHostsPerm, Perm(info.mode))]
  {
    ExpectedModeNumerals();
    assert ": expected chmod 0644, got " == ": expected chmod " + "0644" + ", got ";
    SpelledOutMode(pth, "0644", Sunshine.KnownHostsPerm, Perm(info.mode));
  }

  /** The single warning for an entry that does not conform. */
  lemma FoundIsChmodWarning(pth: string, info: FileInfo)
    requires !Conforms(info)
    ensures Found(pth, info) == [ChmodWarning(pth, ExpectedPerm(info.name), Perm(info.mode))]
  {
    var a, b, c := ScanSSH(pth, info), ScanAuthorizedKeys(pth, info), ScanKnownHosts(pth, info);
    if info.name == ".ssh" {
      SshRuleIsChmodWarning(pth, info);
      assert b == [] && c == [];
    } else if info.name == "authorized_keys" {
      AuthorizedKeysRuleIsChmodWarning(pth, info);
      assert a == [] && c == [];
    } else {
      KnownHostsRuleIsChmodWarning(pth, info);
      assert a == [] && b == [];
    }
  }

  /** The accumulator of warnings. */
  datatype Scanner = Scanner(warnings: seq<string>)

  /** What a `filepath.WalkFunc` call leaves behind: the updated accumulator and the error it returned. */
  datatype Callback = Callback(scanner: Scanner, error: CallbackError)

  /** The error result of the callback: its only `return` is `return nil` (carrots.go:63). */
  datatype CallbackError = Nil

  /**
    `Scanner.Walk`: append the entry's warnings (at most one) to the
    accumulator and return nil. The incoming error argument is ignored.
   */
  function Walk(s: Scanner, v: Visit): (r: Callback)
    ensures r.error == Nil
    ensures s.warnings <= r.scanner.warnings
    ensures |r.scanner.warnings| <= |s.warnings| + 1
    ensures |r.scanner.warnings| == |s.warnings| <==> Conforms(v.info)
  {
    Callback(Scanner(s.warnings + Found(v.path, v.info)), Nil)
  }

  /**
    The accumulator after the callback has run on every entry of `visits`,
    in visiting order. The callback never returns an error, so the traversal
    never stops early.
   */
  function WalkAll(s: Scanner, visits: seq<Visit>): (r: Scanner)
    ensures s.warnings <= r.warnings
    ensures |r.warnings| <= |s.warnings| + |visits|
    decreases |visits|
  {
    if |visits| == 0 then s
    else Walk(WalkAll(s, visits[..|visits| - 1]), visits[|visits| - 1]).scanner
  }

  /** The warnings an entry owes: the chmod warning of the one rule it fails, if any. */
  predicate Owes(v: Visit, w: string) {
    !Conforms(v.info) && w == ChmodWarning(v.path, ExpectedPerm(v.info.name), Perm(v.info.mode))
  }

  /** An entry's own warnings are exactly the ones it owes. */
  lemma FoundOwes(v: Visit, w: string)
    ensures w in Found(v.path, v.info) <==> Owes(v, w)
  {
    if !Conforms(v.info) {
      FoundIsChmodWarning(v.path, v.info);
    }
  }

  /** Each visited entry's own warnings, in visiting order. */
  function FoundAll(visits: seq<Visit>): (fs: seq<seq<string>>)
    ensures |fs| == |visits|
    ensures forall i :: 0 <= i < |visits| ==> fs[i] == Found(visits[i].path, visits[i].info)
  {
    seq(|visits|, i requires 0 <= i < |visits| => Found(visits[i].path, visits[i].info))
  }

  lemma WalkAllSnoc(s: Scanner, visits: seq<Visit>)
    requires |visits| > 0
    ensures WalkAll(s, visits).warnings ==
              WalkAll(s, visits[..|visits| - 1]).warnings + Found(visits[|visits| - 1].path, visits[|visits| - 1].info)
  {
  }

  lemma FoundAllSnoc(visits: seq<Visit>)
    requires |visits| > 0
    ensures Flatten(FoundAll(visits)) ==
              Flatten(FoundAll(visits[..|visits| - 1])) + Found(visits[|visits| - 1].path, visits[|visits| - 1].info)
  {
    var n := |visits| - 1;
    assert FoundAll(visits)[..n] == FoundAll(visits[..n]);
  }

  /**
    The accumulator after a walk holds the warnings it started with followed
    by every entry's own warnings in visiting order: no entry's warnings are
    lost, reordered or repeated.
   */
  lemma {:induction false} WalkAllFlattens(s: Scanner, visits: seq<Visit>)
    ensures WalkAll(s, visits).warnings == s.warnings + Flatten(FoundAll(visits))
    decreases |visits|
  {
    if |visits| == 0 {
      assert s.warnings + [] == s.warnings;
    } else {
      var n := |visits| - 1;
      var f := Found(visits[n].path, visits[n].info);
      calc {
        WalkAll(s, visits).warnings;
      == { WalkAllSnoc(s, visits); }
        WalkAll(s, visits[..n]).warnings + f;
      == { WalkAllFlattens(s, visits[..n]); }
        s.warnings + Flatten(FoundAll(visits[..n])) + f;
      == { SeqAssoc(s.warnings, Flatten(FoundAll(visits[..n])), f); }
        s.warnings + (Flatten(FoundAll(visits[..n])) + f);
      == { FoundAllSnoc(visits); }
        s.warnings + Flatten(FoundAll(visits));
      }
    }
  }

  /** `Scan`: the warnings gathered from one root's entries, starting from an empty accumulator. */
  function Scan(visits: seq<Visit>): (r: seq<string>)
    ensures |r| <= |visits|
  {
    WalkAll(Scanner([]), visits).warnings
  }

  lemma ScanIsFlatten(visits: seq<Visit>)
    ensures Scan(visits) == Flatten(FoundAll(visits))
  {
    WalkAllFlattens(Scanner([]), visits);
    assert [] + Flatten(FoundAll(visits)) == Flatten(FoundAll(visits));
  }

  /** A warning is in the scan of a root exactly when some entry of the root owes it. */
  lemma ScanWarnsIff(visits: seq<Visit>, w: string)
    ensures w in Scan(visits) <==> exists i :: 0 <= i < |visits| && Owes(visits[i], w)
  {
    var fs := FoundAll(visits);
    ScanIsFlatten(visits);
    FlattenHas(fs, w);
    forall i | 0 <= i < |visits|
      ensures w in fs[i] <==> Owes(visits[i], w)
    {
      FoundOwes(visits[i], w);
    }
  }

  /** The scan of a root is empty exactly when every entry conforms. */
  lemma ScanEmptyIff(visits: seq<Visit>)
    ensures Scan(visits) == [] <==> forall i :: 0 <= i < |visits| ==> Conforms(visits[i].info)
  {
    ScanIsFlatten(visits);
    FlattenEmpty(FoundAll(visits));
  }

  /** Scanning a root split in two is scanning the two parts one after the other. */
  lemma ScanAppend(a: seq<Visit>, b: seq<Visit>)
    ensures Scan(a + b) == Scan(a) + Scan(b)
  {
    calc {
      Scan(a + b);
    == { ScanIsFlatten(a + b); }
      Flatten(FoundAll(a + b));
    == { assert FoundAll(a + b) == FoundAll(a) + FoundAll(b); }
      Flatten(FoundAll(a) + FoundAll(b));
    == { FlattenAppend(FoundAll(a), FoundAll(b)); }
      Flatten(FoundAll(a)) + Flatten(FoundAll(b));
    == { ScanIsFlatten(a); ScanIsFlatten(b); }
      Scan(a) + Scan(b);
    }
  }

  /** Starting from some warnings only puts them in front of what the entries add. */
  lemma AccumulatorIsPrefix(s: Scanner, visits: seq<Visit>)
    ensures WalkAll(s, visits).warnings == s.warnings + Scan(visits)
  {
    WalkAllFlattens(s, visits);
    ScanIsFlatten(visits);
  }

  /** The scan as the source runs it: one callback after another on a mutable accumulator. */
  method ScanLoop(visits: seq<Visit>) returns (warnings: seq<string>)
    ensures warnings == Scan(visits)
  {
    var scanner := Scanner([]);
    var i := 0;
    while i < |visits|
      invariant 0 <= i <= |visits|
      invariant scanner.warnings == Scan(visits[..i])
      decreases |visits| - i
    {
      var result := Walk(scanner, visits[i]);
      ScanStep(visits, i);
      scanner := result.scanner;
      i := i + 1;
    }
    assert visits[..i] == visits;
    warnings := scanner.warnings;
  }

  lemma ScanStep(visits: seq<Visit>, i: nat)
    requires i < |visits|
    ensures Scan(visits[..i + 1]) == Scan(visits[..i]) + Found(visits[i].path, visits[i].info)
  {
    var p := visits[..i + 1];
    assert p[..i] == visits[..i];
    WalkAllSnoc(Scanner([]), p);
  }

  /** What `Report` prints (one line per warning) and the exit code it returns. */
  datatype Outcome = Outcome(lines: seq<string>, code: int)

  /** `Report`: print every warning of the scan; return 1 if there was any, else 0. */
  function Report(visits: seq<Visit>): (o: Outcome)
    ensures o.lines == Scan(visits)
    ensures o.code == 0 || o.code == 1
    ensures o.code == 0 <==> forall i :: 0 <= i < |visits| ==> Conforms(visits[i].info)
  {
    ScanEmptyIff(visits);
    var warnings := Scan(visits);
    Outcome(warnings, if |warnings| != 0 then 1 else 0)
  }
}

=== FILE: filesystem.dfy ===
/**
  What the scanner learns from the operating system about one visited entry.
  The calls themselves (`os.Lstat`, `os.Stat`, `os.Readlink`) are not modelled:
  their answers are carried as fields of the entry.
 */
module FileSystem {

  /** Go's `os.FileMode`: an unsigned 32-bit word. */
  type FileMode = m: nat | m < 0x1_0000_0000

  /** `fs.ModeDir`, bit 31. */
  const ModeDir: nat := 0x8000_0000

  /** `fs.ModeSymlink`, bit 27. */
  const ModeSymlink: nat := 0x800_0000

  /** 0o1000: the permission bits are the residue modulo this value. */
  const PermModulus: nat := 512

  /** `info.IsDir()`, i.e. `mode & ModeDir != 0`. */
  predicate IsDir(m: FileMode) {
    (m / ModeDir) % 2 == 1
  }

  /** `mode & os.ModeSymlink != 0`. */
  predicate IsSymlink(m: FileMode) {
    (m / ModeSymlink) % 2 == 1
  }

  /** In a 32-bit mode word the directory bit is set exactly when the word is at least 2^31. */
  lemma DirBitIsTopBit(m: FileMode)
    ensures IsDir(m) <==> m >= ModeDir
  {
    assert m / ModeDir <= 1;
  }

  /** The link bit is bit 27 of the word: set exactly when the residue below 2^28 is at least 2^27. */
  lemma SymlinkBitIsBit27(m: FileMode)
    ensures IsSymlink(m) <==> m % 0x1000_0000 >= ModeSymlink
  {
    var q := m / ModeSymlink;
    assert m == q * ModeSymlink + m % ModeSymlink;
    assert m % 0x1000_0000 == (q % 2) * ModeSymlink + m % ModeSymlink;
  }

  /** `info.Mode() % 01000`: the nine rwx bits, without type, setuid, setgid or sticky bits. */
  function Perm(m: FileMode): (p: nat)
    ensures p < PermModulus
  {
    m % PermModulus
  }

  /** The fields of `os.FileInfo` the scanner reads: `Name()` (the base name) and `Mode()`. */
  datatype FileInfo = FileInfo(name: string, mode: FileMode)

  /** One call of a `filepath.WalkFunc`: the path and the `os.Lstat` information of the entry. */
  datatype Visit = Visit(path: string, info: FileInfo)

  /** An error value returned by the operating system; `Eof` is Go's `io.EOF`. */
  datatype OsError = Eof | OsFault(message: string)

  /** The answer of `os.Stat(path)`, which follows symbolic links. */
  datatype StatResult = StatOk | StatNotExist | StatFailed(err: OsError)

  /** The answer of `os.Readlink(path)`. */
  datatype ReadlinkResult = LinkTarget(target: string) | LinkFailed(err: OsError)

  /** A visited entry together with the operating system's answers about it. */
  datatype Entry = Entry(visit: Visit, stat: StatResult, readlink: ReadlinkResult)

  /** The mode word of a directory with permission bits `p`. */
  function DirMode(p: nat): (m: FileMode)
    requires p < PermModulus
    ensures IsDir(m) && !IsSymlink(m) && Perm(m) == p
  {
    ModeDir + p
  }

  /** The mode word of a regular file with permission bits `p`. */
  function FileModeOf(p: nat): (m: FileMode)
    requires p < PermModulus
    ensures !IsDir(m) && !IsSymlink(m) && Perm(m) == p
  {
    p
  }

  /**
    The mode with the symbolic-link bit cleared: its directory bit and its
    permission bits are those of `m`.
   */
  function WithoutSymlinkBit(m: FileMode): (n: FileMode)
    requires IsSymlink(m)
    ensures !IsSymlink(n)
    ensures IsDir(n) == IsDir(m)
    ensures Perm(n) == Perm(m)
    ensures n + ModeSymlink == m
  {
    var q := m / ModeSymlink;
    var r := m % ModeSymlink;
    assert m == q * ModeSymlink + r;
    assert m - ModeSymlink == (q - 1) * ModeSymlink + r;
    assert (m - ModeSymlink) / ModeSymlink == q - 1;
    assert m / ModeDir == q / 16;
    assert (m - ModeSymlink) / ModeDir == (q - 1) / 16;
    m - ModeSymlink
  }
}

=== FILE: messages.dfy ===
/**
  The texts the scanner emits: the kind mismatch
  `"<path>: expected <file|directory>, got <the other>"`, the mode mismatch
  `"<path>: expected chmod %04o, got %04o"` and the error `"<path>: not found"`.
 */
module Messages {
  import opened Octal

  /** The kind a rule expects; the scanner tells the two apart by `info.IsDir()` alone. */
  datatype Kind = File | Directory {

    function Name(): string {
      match this
      case File => "file"
      case Directory => "directory"
    }

    function Other(): Kind {
      match this
      case File => Directory
      case Directory => File
    }
  }

  /** `fmt.Sprintf("%s: expected <want>, got <the other kind>", pth)`. */
  function KindWarning(pth: string, want: Kind): string {
    pth + ": expected " + want.Name() + ", got " + want.Other().Name()
  }

  /** `fmt.Sprintf("%s: expected chmod %04o, got %04o", pth, expected, observed)`. */
  function ChmodWarning(pth: string, expected: nat, observed: nat): string {
    pth + ": expected chmod " + FormatOctal(expected, 4) + ", got " + FormatOctal(observed, 4)
  }

  /** `fmt.Errorf("%s: not found", pth)`. */
  function NotFoundMessage(pth: string): string {
    pth + ": not found"
  }

  lemma SliceOfAppend(x: string, y: string, i: nat, j: nat)
    requires i <= j <= |x|
    ensures (x + y)[i..j] == x[i..j]
  {
  }

  /**
    For permission values a mode-mismatch warning is the path followed by a
    fixed 31-character tail that holds the two four-digit numerals.
   */
  lemma ChmodWarningLayout(pth: string, expected: nat, observed: nat)
    requires expected < 512 && observed < 512
    ensures var w := ChmodWarning(pth, expected, observed);
            && |w| == |pth| + 31
            && w[..|pth|] == pth
            && w[|pth| + 17..|pth| + 21] == FormatOctal(expected, 4)
            && w[|pth| + 27..] == FormatOctal(observed, 4)
  {
    FourDigitPermission(expected);
    FourDigitPermission(observed);
    var e := FormatOctal(expected, 4);
    var o := FormatOctal(observed, 4);
    var w1 := pth + ": expected chmod ";
    var w2 := w1 + e;
    var w3 := w2 + ", got ";
    SliceOfAppend(w3, o, 0, |pth|);
    SliceOfAppend(w2, ", got ", 0, |pth|);
    SliceOfAppend(w1, e, 0, |pth|);
    SliceOfAppend(w3, o, |w1|, |w2|);
    SliceOfAppend(w2, ", got ", |w1|, |w2|);
  }

  /** Distinct (path, expected, observed) triples give distinct mode-mismatch warnings. */
  lemma ChmodWarningInjective(p1: string, e1: nat, o1: nat, p2: string, e2: nat, o2: nat)
    requires e1 < 512 && o1 < 512 && e2 < 512 && o2 < 512
    requires ChmodWarning(p1, e1, o1) == ChmodWarning(p2, e2, o2)
    ensures p1 == p2 && e1 == e2 && o1 == o2
  {
    ChmodWarningLayout(p1, e1, o1);
    ChmodWarningLayout(p2, e2, o2);
    FormatOctalInjective(e1, e2, 4);
    FormatOctalInjective(o1, o2, 4);
  }

  /** A kind-mismatch warning is never a mode-mismatch warning for the same path. */
  lemma KindWarningIsNotChmodWarning(pth: string, want: Kind, expected: nat, observed: nat)
    ensures KindWarning(pth, want) != ChmodWarning(pth, expected, observed)
  {
    var w1 := pth + ": expected ";
    var w2 := w1 + want.Name();
    var w3 := w2 + ", got ";
    assert KindWarning(pth, want)[|w1|] == want.Name()[0] by {
      assert KindWarning(pth, want) == w3 + want.Other().Name();
      assert w3[|w1|] == w2[|w1|];
    }
    var c1 := pth + ": expected chmod ";
    var c2 := c1 + FormatOctal(expected, 4);
    var c3 := c2 + ", got ";
    assert ChmodWarning(pth, expected, observed)[|w1|] == 'c' by {
      assert ChmodWarning(pth, expected, observed) == c3 + FormatOctal(observed, 4);
      assert c3[|w1|] == c2[|w1|] == c1[|w1|];
    }
  }

  /** The two kind-mismatch warnings for a path differ. */
  lemma KindWarningsDiffer(pth: string)
    ensures KindWarning(pth, File) != KindWarning(pth, Directory)
  {
    assert KindWarning(pth, File)[|pth| + 11] == 'f';
    assert KindWarning(pth, Directory)[|pth| + 11] == 'd';
  }
}

=== FILE: octal.dfy ===
/**
  Octal rendering of permission bits, as Go's fmt package prints an unsigned
  integer under the `%o` and `%04o` verbs, together with the reading of such a
  numeral back into a number.
 */
module Octal {

  predicate IsOctalDigit(c: char) {
    '0' <= c <= '7'
  }

  predicate AllOctal(s: string) {
    forall i :: 0 <= i < |s| ==> IsOctalDigit(s[i])
  }

  /** The digit character for a value below eight. */
  function Digit(d: nat): (c: char)
    requires d < 8
    ensures IsOctalDigit(c)
  {
    ('0' as int + d) as char
  }

  function DigitValue(c: char): (d: nat)
    requires IsOctalDigit(c)
    ensures d < 8
  {
    c as int - '0' as int
  }

  /** The value of an octal numeral, most significant digit first. */
  function ParseOctal(s: string): nat
    requires AllOctal(s)
  {
    if |s| == 0 then 0 else 8 * ParseOctal(s[..|s| - 1]) + DigitValue(s[|s| - 1])
  }

  /** The shortest octal numeral of `n` (`%o`): "0" for zero, otherwise no leading zero. */
  function OctalDigits(n: nat): (s: string)
    ensures 1 <= |s|
    ensures |s| > 1 ==> s[0] != '0'
    ensures n < 8 ==> |s| == 1
    ensures n < 64 ==> |s| <= 2
    ensures n < 512 ==> |s| <= 3
    decreases n
  {
    if n < 8 then [Digit(n)] else OctalDigits(n / 8) + [Digit(n % 8)]
  }

  /** The numeral consists of octal digits and reads back as `n`. */
  lemma {:induction false} OctalDigitsParse(n: nat)
    ensures AllOctal(OctalDigits(n))
    ensures ParseOctal(OctalDigits(n)) == n
    decreases n
  {
    if n >= 8 {
      var s := OctalDigits(n);
      OctalDigitsParse(n / 8);
      assert s[..|s| - 1] == OctalDigits(n / 8);
      assert s[|s| - 1] == Digit(n % 8);
    }
  }

  function Zeros(k: nat): (s: string)
    ensures |s| == k && AllOctal(s)
    ensures forall i :: 0 <= i < k ==> s[i] == '0'
  {
    seq(k, _ => '0')
  }

  /** Leading zeros do not change the value of a numeral. */
  lemma {:induction false} ParseLeadingZeros(k: nat, s: string)
    requires AllOctal(s)
    ensures AllOctal(Zeros(k) + s)
    ensures ParseOctal(Zeros(k) + s) == ParseOctal(s)
    decreases |s|, k
  {
    var z := Zeros(k) + s;
    if |s| == 0 {
      assert z == Zeros(k);
      if k > 0 {
        assert z[..|z| - 1] == Zeros(k - 1) + s;
        ParseLeadingZeros(k - 1, s);
      }
    } else {
      assert z[..|z| - 1] == Zeros(k) + s[..|s| - 1];
      ParseLeadingZeros(k, s[..|s| - 1]);
    }
  }

  /** Go's `%0<width>o`: the octal numeral of `n`, left-padded with zeros to at least `width` characters. */
  function FormatOctal(n: nat, width: nat): (s: string)
    ensures |s| >= width
    ensures |s| == width || |s| == |OctalDigits(n)|
  {
    var d := OctalDigits(n);
    if |d| >= width then d else Zeros(width - |d|) + d
  }

  /** The padded numeral consists of octal digits and reads back as `n`. */
  lemma FormatOctalParse(n: nat, width: nat)
    ensures AllOctal(FormatOctal(n, width))
    ensures ParseOctal(FormatOctal(n, width)) == n
  {
    var d := OctalDigits(n);
    OctalDigitsParse(n);
    if |d| < width {
      ParseLeadingZeros(width - |d|, d);
    }
  }

  /**
    A permission value (below 0o1000) prints under `%04o` as exactly four
    octal digits, the first of which is '0'.
   */
  lemma FourDigitPermission(n: nat)
    requires n < 512
    ensures |FormatOctal(n, 4)| == 4
    ensures FormatOctal(n, 4)[0] == '0'
  {
    var d := OctalDigits(n);
    assert |d| <= 3;
  }

  /** Two permission values with the same `%04o` rendering are equal. */
  lemma FormatOctalInjective(a: nat, b: nat, width: nat)
    requires FormatOctal(a, width) == FormatOctal(b, width)
    ensures a == b
  {
    FormatOctalParse(a, width);
    FormatOctalParse(b, width);
  }

  /** A value of three octal digits, the first not zero, prints under `%04o` as '0' and those digits. */
  lemma ThreeDigitNumeral(a: nat, b: nat, c: nat)
    requires 1 <= a < 8 && b < 8 && c < 8
    ensures FormatOctal(64 * a + 8 * b + c, 4) == ['0', Digit(a), Digit(b), Digit(c)]
  {
    var n := 64 * a + 8 * b + c;
    assert n / 8 == 8 * a + b && n % 8 == c;
    assert (8 * a + b) / 8 == a && (8 * a + b) % 8 == b;
    assert OctalDigits(8 * a + b) == OctalDigits(a) + [Digit(b)] == [Digit(a), Digit(b)];
    assert OctalDigits(n) == OctalDigits(8 * a + b) + [Digit(c)];
    assert Zeros(1) == "0";
  }

  /** The `%04o` numerals of the modes the scanners expect: 0700, 0755, 0600, 0644 and 0400. */
  lemma ExpectedModeNumerals()
    ensures FormatOctal(448, 4) == "0700"
    ensures FormatOctal(493, 4) == "0755"
    ensures FormatOctal(384, 4) == "0600"
    ensures FormatOctal(420, 4) == "0644"
    ensures FormatOctal(256, 4) == "0400"
  {
    ThreeDigitNumeral(7, 0, 0);
    ThreeDigitNumeral(7, 5, 5);
    ThreeDigitNumeral(6, 0, 0);
    ThreeDigitNumeral(6, 4, 4);
    ThreeDigitNumeral(4, 0, 0);
  }
}

=== FILE: paths.dfy ===
/**
  Slash-separated path arithmetic as Go's `path` and `path/filepath` packages
  do it on a Unix system: splitting into elements, lexical cleaning (`Clean`),
  the directory part (`filepath.Dir`), the last element (`path.Base`), and the
  combination the scanner uses to name an entry's parent directory.
 */
module Paths {
  import opened Seqs

  predicate SlashFree(s: string) {
    forall k :: 0 <= k < |s| ==> s[k] != '/'
  }

  predicate Rooted(s: string) {
    |s| > 0 && s[0] == '/'
  }

  /** Index of the last '/' in `s`, or -1 when there is none. */
  function LastSlash(s: string): (i: int)
    ensures -1 <= i < |s|
    ensures 0 <= i ==> s[i] == '/'
    ensures forall k :: i < k < |s| ==> s[k] != '/'
  {
    if |s| == 0 then -1
    else if s[|s| - 1] == '/' then |s| - 1
    else LastSlash(s[..|s| - 1])
  }

  lemma LastSlashOfChild(a: string, b: string)
    requires SlashFree(b)
    ensures LastSlash(a + "/" + b) == |a|
  {
    var s := a + "/" + b;
    assert s[|a|] == '/';
    assert s[|a| + 1..] == b;
  }

  /** The elements of `s` between slashes, as `strings.Split(s, "/")` gives them. */
  function Elements(s: string): (es: seq<string>)
    ensures |es| >= 1
    ensures forall k :: 0 <= k < |es| ==> SlashFree(es[k])
    decreases |s|
  {
    var i := LastSlash(s);
    if i < 0 then [s] else Elements(s[..i]) + [s[i + 1..]]
  }

  /** `strings.Join(es, "/")`. */
  function Join(es: seq<string>): string
    requires |es| >= 1
  {
    if |es| == 1 then es[0] else Join(es[..|es| - 1]) + "/" + es[|es| - 1]
  }

  /** Splitting at the slashes and joining again restores the path. */
  lemma {:induction false} JoinElements(s: string)
    ensures Join(Elements(s)) == s
    decreases |s|
  {
    var i := LastSlash(s);
    if i >= 0 {
      var es := Elements(s);
      assert es[..|es| - 1] == Elements(s[..i]);
      JoinElements(s[..i]);
      assert s == s[..i] + "/" + s[i + 1..];
    }
  }

  /** Joining slash-free elements and splitting again restores the elements. */
  lemma {:induction false} ElementsJoin(es: seq<string>)
    requires |es| >= 1
    requires forall k :: 0 <= k < |es| ==> SlashFree(es[k])
    ensures Elements(Join(es)) == es
    decreases |es|
  {
    if |es| > 1 {
      var init := es[..|es| - 1];
      var a := Join(init);
      var last := es[|es| - 1];
      LastSlashOfChild(a, last);
      var s := a + "/" + last;
      assert s[..|a|] == a;
      assert s[|a| + 1..] == last;
      ElementsJoin(init);
      assert es == init + [last];
    } else {
      assert LastSlash(es[0]) < 0;
    }
  }

  /**
    One step of lexical cleaning: empty and "." elements vanish, ".." removes
    the preceding real element, and a ".." that has nothing to remove is kept
    in a relative path and dropped at the root.
   */
  function CleanStep(st: seq<string>, e: string, rooted: bool): seq<string> {
    if e == "" || e == "." then st
    else if e == ".." then
      if |st| > 0 && st[|st| - 1] != ".." then st[..|st| - 1]
      else if rooted then st
      else st + [".."]
    else st + [e]
  }

  /** The elements that survive cleaning, left to right. */
  function Resolve(es: seq<string>, rooted: bool): (st: seq<string>)
    ensures forall k :: 0 <= k < |st| ==> st[k] != "" && st[k] != "."
    ensures forall k :: 0 <= k < |st| ==> st[k] == ".." || st[k] in es
    ensures (forall k :: 0 <= k < |es| ==> SlashFree(es[k])) ==>
              forall k :: 0 <= k < |st| ==> SlashFree(st[k])
    decreases |es|
  {
    if |es| == 0 then []
    else
      var init := es[..|es| - 1];
      var st := Resolve(init, rooted);
      assert forall k :: 0 <= k < |init| ==> init[k] in es;
      CleanStep(st, es[|es| - 1], rooted)
  }

  function CleanElements(s: string): seq<string> {
    Resolve(Elements(s), Rooted(s))
  }

  /** `filepath.Clean`: the shortest lexically equivalent path. */
  function Clean(s: string): (c: string)
    ensures c != ""
    ensures Rooted(s) ==> Rooted(c)
  {
    var st := CleanElements(s);
    if |st| == 0 then (if Rooted(s) then "/" else ".")
    else (if Rooted(s) then "/" else "") + Join(st)
  }

  /** `filepath.Dir`: everything up to the last slash, cleaned. */
  function Dir(p: string): (d: string)
    ensures d != ""
  {
    Clean(p[..LastSlash(p) + 1])
  }

  function StripTrailingSlashes(s: string): (t: string)
    ensures |t| <= |s| && t == s[..|t|]
    ensures |t| == 0 || t[|t| - 1] != '/'
    ensures |s| > 0 && s[|s| - 1] != '/' ==> t == s
    ensures forall k :: |t| <= k < |s| ==> s[k] == '/'
  {
    if |s| > 0 && s[|s| - 1] == '/' then StripTrailingSlashes(s[..|s| - 1]) else s
  }

  /** A suffix with no slash in it is slash-free. */
  lemma SuffixSlashFree(q: string, i: int)
    requires -1 <= i < |q|
    requires forall k :: i < k < |q| ==> q[k] != '/'
    ensures SlashFree(q[i + 1..])
  {
    var t := q[i + 1..];
    forall k | 0 <= k < |t|
      ensures t[k] != '/'
    {
      assert t[k] == q[i + 1 + k];
    }
  }

  /** What follows the last slash of a path that does not end in a slash is a non-empty element. */
  lemma LastSegment(q: string)
    requires q != "" && q[|q| - 1] != '/'
    ensures q[LastSlash(q) + 1..] != "" && SlashFree(q[LastSlash(q) + 1..])
  {
    var i := LastSlash(q);
    assert i != |q| - 1;
    SuffixSlashFree(q, i);
  }

  /** `path.Base`: the last element, "." for the empty path and "/" for the root. */
  function Base(p: string): (b: string)
    ensures b == "/" || (b != "" && SlashFree(b))
  {
    if p == "" then "."
    else
      var q := StripTrailingSlashes(p);
      if q == "" then "/" else LastSegment(q); q[LastSlash(q) + 1..]
  }

  /** The name of the directory holding `p`: `path.Base(filepath.Dir(p))`. */
  function ParentName(p: string): (n: string)
    ensures n == "/" || (n != "" && SlashFree(n))
  {
    Base(Dir(p))
  }

  /** The directory part of `p` before cleaning (up to and including the last slash). */
  function DirPrefix(p: string): string {
    p[..LastSlash(p) + 1]
  }

  /** The base of a slash-free name is the name itself. */
  lemma BaseOfName(name: string)
    requires SlashFree(name) && name != ""
    ensures Base(name) == name
  {
    assert StripTrailingSlashes(name) == name;
  }

  /** The base of `a/name` is `name`. */
  lemma BaseOfChild(a: string, name: string)
    requires SlashFree(name) && name != ""
    ensures Base(a + "/" + name) == name
  {
    var s := a + "/" + name;
    assert s[|s| - 1] == name[|name| - 1];
    assert StripTrailingSlashes(s) == s;
    LastSlashOfChild(a, name);
    assert s[|a| + 1..] == name;
  }

  /** The base of a single real element, possibly rooted, is that element. */
  lemma BaseOfSingle(lead: string, last: string)
    requires lead == "" || lead == "/"
    requires SlashFree(last) && last != ""
    ensures Base(lead + Join([last])) == last
  {
    assert Join([last]) == last;
    if lead == "" {
      assert lead + last == last;
      BaseOfName(last);
    } else {
      assert lead + last == "" + "/" + last;
      BaseOfChild("", last);
    }
  }

  /** The base of a join of two or more elements is the last element. */
  lemma BaseOfLonger(lead: string, st: seq<string>)
    requires |st| >= 2
    requires SlashFree(st[|st| - 1]) && st[|st| - 1] != ""
    ensures Base(lead + Join(st)) == st[|st| - 1]
  {
    var last := st[|st| - 1];
    var init := Join(st[..|st| - 1]);
    calc {
      Base(lead + Join(st));
      { assert Join(st) == init + "/" + last; }
      Base(lead + (init + "/" + last));
      { SeqAssoc(lead, init + "/", last); SeqAssoc(lead, init, "/"); }
      Base((lead + init) + "/" + last);
      { BaseOfChild(lead + init, last); }
      last;
    }
  }

  /** The base of a joined, possibly rooted, list of real elements is the last element. */
  lemma BaseOfJoin(lead: string, st: seq<string>)
    requires lead == "" || lead == "/"
    requires |st| >= 1
    requires forall k :: 0 <= k < |st| ==> SlashFree(st[k]) && st[k] != ""
    ensures Base(lead + Join(st)) == st[|st| - 1]
  {
    if |st| == 1 {
      assert st == [st[0]];
      BaseOfSingle(lead, st[0]);
    } else {
      BaseOfLonger(lead, st);
    }
  }

  /** The base of a cleaned path is its last surviving element. */
  lemma BaseOfClean(s: string)
    ensures var st := CleanElements(s);
            Base(Clean(s)) ==
              if |st| == 0 then (if Rooted(s) then "/" else ".")
              else st[|st| - 1]
  {
    var st := CleanElements(s);
    if |st| > 0 {
      BaseOfJoin(if Rooted(s) then "/" else "", st);
    }
  }

  /** `ParentName` is the last element that survives cleaning the directory part. */
  lemma ParentNameIsLastCleanElement(p: string)
    ensures var st := CleanElements(DirPrefix(p));
            ParentName(p) ==
              if |st| == 0 then (if Rooted(DirPrefix(p)) then "/" else ".")
              else st[|st| - 1]
  {
    BaseOfClean(DirPrefix(p));
  }

  /** A path without a slash has parent "." (the current directory). */
  lemma ParentNameWithoutSlash(p: string)
    requires SlashFree(p)
    ensures ParentName(p) == "."
  {
    assert DirPrefix(p) == "";
    assert Elements("") == [""];
    ParentNameIsLastCleanElement(p);
  }

  /** Splitting `a/b` gives the elements of `a` followed by `b`. */
  lemma ElementsOfChild(a: string, b: string)
    requires SlashFree(b)
    ensures Elements(a + "/" + b) == Elements(a) + [b]
  {
    var s := a + "/" + b;
    LastSlashOfChild(a, b);
    assert s[..|a|] == a;
    assert s[|a| + 1..] == b;
  }

  lemma ResolveSnoc(es: seq<string>, e: string, rooted: bool)
    ensures Resolve(es + [e], rooted) == CleanStep(Resolve(es, rooted), e, rooted)
  {
    assert (es + [e])[..|es|] == es;
  }

  /** Cleaning elements that end in a real name and an empty element keeps that name last. */
  lemma ResolveEndsWithName(es: seq<string>, c: string, rooted: bool)
    requires |es| >= 2 && es[|es| - 1] == "" && es[|es| - 2] == c
    requires c != "" && c != "." && c != ".."
    ensures var st := Resolve(es, rooted); |st| > 0 && st[|st| - 1] == c
  {
    var init := es[..|es| - 1];
    assert es == init + [""];
    ResolveSnoc(init, "", rooted);
    assert init == init[..|init| - 1] + [c];
    ResolveSnoc(init[..|init| - 1], c, rooted);
  }

  /** The last element of `d + c`, with `d` empty or ending in a slash, is `c`. */
  lemma LastElementOfName(d: string, c: string)
    requires d == "" || d[|d| - 1] == '/'
    requires SlashFree(c)
    ensures var es := Elements(d + c); es[|es| - 1] == c
  {
    if d == "" {
      assert d + c == c;
      assert LastSlash(c) < 0;
    } else {
      var dd := d[..|d| - 1];
      assert d == dd + "/";
      calc {
        Elements(d + c);
        { SeqAssoc(dd, "/", c); }
        Elements(dd + "/" + c);
        { ElementsOfChild(dd, c); }
        Elements(dd) + [c];
      }
    }
  }

  /** The elements of a directory part `d + c + "/"` end with `c` and an empty element. */
  lemma ElementsOfDirPart(d: string, c: string)
    requires d == "" || d[|d| - 1] == '/'
    requires SlashFree(c)
    ensures var es := Elements(d + c + "/");
            |es| >= 2 && es[|es| - 1] == "" && es[|es| - 2] == c
  {
    calc {
      Elements(d + c + "/");
      { assert d + c + "/" == (d + c) + "/" + ""; }
      Elements((d + c) + "/" + "");
      { ElementsOfChild(d + c, ""); }
      Elements(d + c) + [""];
    }
    LastElementOfName(d, c);
  }

  /**
    A child `n` of a directory element `c` (written `d + c + "/" + n`, with `d`
    empty or ending in a slash) has parent name `c`, provided `c` is a real
    name rather than "." or "..".
   */
  lemma ParentNameOfChild(d: string, c: string, n: string)
    requires d == "" || d[|d| - 1] == '/'
    requires SlashFree(c) && SlashFree(n)
    requires c != "" && c != "." && c != ".."
    ensures ParentName(d + c + "/" + n) == c
  {
    var p := d + c + "/" + n;
    LastSlashOfChild(d + c, n);
    var pre := DirPrefix(p);
    assert pre == d + c + "/";
    ElementsOfDirPart(d, c);
    ResolveEndsWithName(Elements(pre), c, Rooted(pre));
    ParentNameIsLastCleanElement(p);
  }

  /**
    Conversely, a parent name other than ".", "/" and ".." is one of the
    elements of the path itself: the scanner never invents a parent.
   */
  lemma ParentNameFromPath(p: string)
    ensures var n := ParentName(p);
            n == "." || n == "/" || n == ".." || n in Elements(p)
  {
    var n := ParentName(p);
    if n != "." && n != "/" && n != ".." {
      var st := CleanElements(DirPrefix(p));
      ParentNameIsLastCleanElement(p);
      assert |st| > 0 && n == st[|st| - 1];
      LastResolvedIsElement(p);
    }
  }

  /** The last element surviving cleaning is "..", or a non-empty element of the input. */
  lemma CleanedLastIsElement(s: string)
    ensures var st := CleanElements(s);
            |st| > 0 ==> st[|st| - 1] == ".." || (st[|st| - 1] != "" && st[|st| - 1] in Elements(s))
  {
  }

  /** The directory part of a path with a slash splits like the part before the slash, plus an empty element. */
  lemma ElementsOfDirPrefix(p: string)
    requires LastSlash(p) >= 0
    ensures Elements(DirPrefix(p)) == Elements(p[..LastSlash(p)]) + [""]
  {
    var i := LastSlash(p);
    var pre := p[..i + 1];
    assert pre[i] == '/';
    assert LastSlash(pre) == i;
    assert pre[..i] == p[..i];
    assert pre[i + 1..] == "";
  }

  /** A path with a slash splits into the elements before its last slash, then its last element. */
  lemma ElementsAtLastSlash(p: string)
    requires LastSlash(p) >= 0
    ensures Elements(p) == Elements(p[..LastSlash(p)]) + [p[LastSlash(p) + 1..]]
  {
  }

  /** A non-empty member of `es + [""]` is a member of `es`, whatever follows. */
  lemma NonEmptyMember(x: string, es: seq<string>, t: string)
    requires x != "" && x in es + [""]
    ensures x in es + [t]
  {
    assert x in es;
  }

  /** The last element surviving the cleaning of the directory part is an element of the path, or "..". */
  lemma LastResolvedIsElement(p: string)
    ensures var st := CleanElements(DirPrefix(p));
            |st| > 0 ==> st[|st| - 1] == ".." || st[|st| - 1] in Elements(p)
  {
    var pre := DirPrefix(p);
    var st := CleanElements(pre);
    var i := LastSlash(p);
    CleanedLastIsElement(pre);
    if i < 0 {
      assert pre == "";
      assert Elements(pre) == [""];
    } else if |st| > 0 && st[|st| - 1] != ".." {
      ElementsOfDirPrefix(p);
      ElementsAtLastSlash(p);
      NonEmptyMember(st[|st| - 1], Elements(p[..i]), p[i + 1..]);
    }
  }
}

=== FILE: patterns.dfy ===
/**
  The two key-file name patterns of the scanner, `^id_.+$` and
  `^id_.+\.pub$`, as Go's RE2 engine reads them: anchored at both ends of the
  name, with `.` matching any character except a newline.
 */
module Patterns {

  predicate NoNewline(s: string) {
    forall i :: 0 <= i < |s| ==> s[i] != '\n'
  }

  /** The name matches `^id_.+$`. */
  predicate IsKeyName(name: string) {
    && |name| >= 4
    && name[..3] == "id_"
    && NoNewline(name[3..])
  }

  /** The name matches `^id_.+\.pub$`. */
  predicate IsPublicKeyName(name: string) {
    && |name| >= 8
    && name[..3] == "id_"
    && name[|name| - 4..] == ".pub"
    && NoNewline(name[3..|name| - 4])
  }

  /** A literal reading of `^id_.+$`: "id_" followed by one or more non-newline characters. */
  ghost predicate KeyRegexMatches(name: string) {
    exists tail :: NoNewline(tail) && |tail| >= 1 && name == "id_" + tail
  }

  /** A literal reading of `^id_.+\.pub$`: "id_", one or more non-newline characters, ".pub". */
  ghost predicate PublicKeyRegexMatches(name: string) {
    exists mid :: NoNewline(mid) && |mid| >= 1 && name == "id_" + mid + ".pub"
  }

  lemma KeyNameIsRegex(name: string)
    ensures IsKeyName(name) <==> KeyRegexMatches(name)
  {
    if IsKeyName(name) {
      assert name == "id_" + name[3..];
    }
    if KeyRegexMatches(name) {
      var tail :| NoNewline(tail) && |tail| >= 1 && name == "id_" + tail;
      assert name[3..] == tail;
    }
  }

  lemma PublicKeyNameIsRegex(name: string)
    ensures IsPublicKeyName(name) <==> PublicKeyRegexMatches(name)
  {
    if IsPublicKeyName(name) {
      var mid := name[3..|name| - 4];
      assert name == "id_" + mid + ".pub";
    }
    if PublicKeyRegexMatches(name) {
      var mid :| NoNewline(mid) && |mid| >= 1 && name == "id_" + mid + ".pub";
      assert name[3..|name| - 4] == mid;
      assert name[|name| - 4..] == ".pub";
    }
  }

  /** Every public-key name is also a key name, so the key rule sees every public key. */
  lemma PublicKeyIsKey(name: string)
    requires IsPublicKeyName(name)
    ensures IsKeyName(name)
  {
    var tail := name[3..];
    var mid := name[3..|name| - 4];
    assert tail == mid + ".pub";
    forall i | 0 <= i < |tail|
      ensures tail[i] != '\n'
    {
      if i >= |mid| {
        assert tail[i] == ".pub"[i - |mid|];
      }
    }
  }

  /** Every key name starts with 'i', so a name starting otherwise is no key name. */
  lemma KeyNameInitial(name: string)
    requires |name| > 0 && name[0] != 'i'
    ensures !IsKeyName(name)
  {
    if |name| >= 3 {
      assert name[..3][0] == name[0];
    }
  }

  /** "id_.pub" is a private-key name: `.+` needs a character between "id_" and ".pub". */
  lemma BarePubSuffixIsPrivate()
    ensures IsKeyName("id_.pub")
    ensures !IsPublicKeyName("id_.pub")
  {
  }

  /** A newline after "id_" defeats `.`, so such a name is no key name at all. */
  lemma NewlineDefeatsKeyPattern(tail: string)
    ensures !IsKeyName("id_\n" + tail)
  {
    var name := "id_\n" + tail;
    assert name[3..][0] == '\n';
  }
}

=== FILE: policy.dfy ===
/**
  The scanner's rules restated as one declarative table: each row names what
  it selects, the kind it expects and the permission bits it expects, and a
  single generic evaluator applies every row to an entry. The table is an
  independent reference for the seven hand-written rule methods; the two are
  proved to give the same warnings, in the same order, for every entry.
 */
module Policy {
  import opened FileSystem
  import opened Paths
  import opened Patterns
  import opened Messages
  import Sunshine
  import opened Seqs

  /** What a row selects, judged on the (possibly link-replaced) path, the base name and the home path. */
  datatype Matcher =
    | PathIs(path: string)
    | NameIs(name: string)
    | NameInSsh(name: string)
    | KeyInSsh(public: bool)
    | HomeName

  datatype Row = Row(matcher: Matcher, kind: Kind, perm: nat)

  const EtcRow := Row(PathIs("/etc"), Directory, Sunshine.EtcPerm)
  const EtcSshRow := Row(PathIs("/etc/ssh"), Directory, Sunshine.EtcPerm)
  const SshDirRow := Row(NameIs(".ssh"), Directory, Sunshine.SshDirPerm)
  const ConfigRow := Row(NameInSsh("config"), File, Sunshine.ConfigPerm)
  const PrivateKeyRow := Row(KeyInSsh(false), File, Sunshine.PrivateKeyPerm)
  const PublicKeyRow := Row(KeyInSsh(true), File, Sunshine.PublicKeyPerm)
  const AuthorizedKeysRow := Row(NameIs("authorized_keys"), File, Sunshine.AuthorizedKeysPerm)
  const KnownHostsRow := Row(NameIs("known_hosts"), File, Sunshine.KnownHostsPerm)
  const HomeRow := Row(HomeName, Directory, Sunshine.HomePerm)

  /**
    The rows, in the order the scanner runs its rules (the two key rows are
    mutually exclusive, so their relative order does not matter).
   */
  const Catalog: seq<Row> :=
    [EtcRow, EtcSshRow, SshDirRow, ConfigRow, PrivateKeyRow, PublicKeyRow, AuthorizedKeysRow, KnownHostsRow, HomeRow]

  predicate Selects(m: Matcher, pth: string, name: string, home: string) {
    match m
    case PathIs(p) => pth == p
    case NameIs(n) => name == n
    case NameInSsh(n) => name == n && ParentName(pth) == ".ssh"
    case KeyInSsh(public) => IsKeyName(name) && ParentName(pth) == ".ssh" && IsPublicKeyName(name) == public
    case HomeName => name == home
  }

  /** The entry has the kind the row expects. */
  predicate KindHolds(row: Row, info: FileInfo) {
    IsDir(info.mode) <==> row.kind == Directory
  }

  /** `w` is a warning that a selecting row owes the entry: a failed kind check or a failed mode check. */
  predicate Violation(row: Row, pth: string, info: FileInfo, w: string) {
    || (!KindHolds(row, info) && w == KindWarning(pth, row.kind))
    || (Perm(info.mode) != row.perm && w == ChmodWarning(pth, row.perm, Perm(info.mode)))
  }

  /** The generic check of one selecting row: kind first, then the permission bits. */
  function Check(row: Row, pth: string, info: FileInfo): (r: seq<string>)
    ensures |r| <= 2
    ensures r == [] <==> KindHolds(row, info) && Perm(info.mode) == row.perm
  {
    (if KindHolds(row, info) then [] else [KindWarning(pth, row.kind)])
    + (if Perm(info.mode) == row.perm then [] else [ChmodWarning(pth, row.perm, Perm(info.mode))])
  }

  /** A row's warnings: those of its check when it selects the entry, none otherwise. */
  function Fire(row: Row, pth: string, info: FileInfo, home: string): (r: seq<string>)
    ensures !Selects(row.matcher, pth, info.name, home) ==> r == []
  {
    if Selects(row.matcher, pth, info.name, home) then Check(row, pth, info) else []
  }

  /** A row owes exactly the warnings of the checks it selects the entry for and the entry fails. */
  lemma FireWarnsIff(row: Row, pth: string, info: FileInfo, home: string, w: string)
    ensures w in Fire(row, pth, info, home) <==> Selects(row.matcher, pth, info.name, home) && Violation(row, pth, info, w)
  {
  }

  /** The first `n` rows applied to the entry, in table order. */
  function EvaluateFirst(rows: seq<Row>, n: nat, pth: string, info: FileInfo, home: string): (r: seq<string>)
    requires n <= |rows|
    ensures |r| <= 2 * n
  {
    if n == 0 then [] else EvaluateFirst(rows, n - 1, pth, info, home) + Fire(rows[n - 1], pth, info, home)
  }

  /** Every row applied to the entry, in table order. */
  function Evaluate(rows: seq<Row>, pth: string, info: FileInfo, home: string): seq<string> {
    EvaluateFirst(rows, |rows|, pth, info, home)
  }

  /** Some row among the first `n` selects the entry and is failed with warning `w`. */
  predicate Owed(rows: seq<Row>, n: nat, pth: string, info: FileInfo, home: string, w: string)
    requires n <= |rows|
  {
    exists i :: 0 <= i < n && Selects(rows[i].matcher, pth, info.name, home) && Violation(rows[i], pth, info, w)
  }

  /**
    A warning is emitted exactly when some row selects the entry and the
    entry fails that row's kind or mode check; never for a row that does not
    select it.
   */
  lemma {:induction false} EvaluateWarnsIff(rows: seq<Row>, n: nat, pth: string, info: FileInfo, home: string, w: string)
    requires n <= |rows|
    ensures w in EvaluateFirst(rows, n, pth, info, home) <==> Owed(rows, n, pth, info, home, w)
    decreases n
  {
    if n > 0 {
      EvaluateWarnsIff(rows, n - 1, pth, info, home, w);
      FireWarnsIff(rows[n - 1], pth, info, home, w);
      if Owed(rows, n, pth, info, home, w) {
        var i :| 0 <= i < n && Selects(rows[i].matcher, pth, info.name, home) && Violation(rows[i], pth, info, w);
        if i < n - 1 {
          assert Owed(rows, n - 1, pth, info, home, w);
        }
      }
    }
  }

  /** An entry that meets every row selecting it gets no warning at all. */
  lemma {:induction false} ConformingIsSilent(rows: seq<Row>, n: nat, pth: string, info: FileInfo, home: string)
    requires n <= |rows|
    requires forall i :: 0 <= i < n && Selects(rows[i].matcher, pth, info.name, home) ==>
               KindHolds(rows[i], info) && Perm(info.mode) == rows[i].perm
    ensures EvaluateFirst(rows, n, pth, info, home) == []
    decreases n
  {
    if n > 0 {
      ConformingIsSilent(rows, n - 1, pth, info, home);
    }
  }

  /** The table's verdict is the rows' verdicts, one after the other. */
  lemma CatalogInOrder(pth: string, info: FileInfo, home: string)
    ensures Evaluate(Catalog, pth, info, home) ==
              Fire(EtcRow, pth, info, home) + Fire(EtcSshRow, pth, info, home) + Fire(SshDirRow, pth, info, home)
              + Fire(ConfigRow, pth, info, home) + Fire(PrivateKeyRow, pth, info, home) + Fire(PublicKeyRow, pth, info, home)
              + Fire(AuthorizedKeysRow, pth, info, home) + Fire(KnownHostsRow, pth, info, home) + Fire(HomeRow, pth, info, home)
  {
    var c := Catalog;
    assert c[0] == EtcRow && c[1] == EtcSshRow && c[2] == SshDirRow && c[3] == ConfigRow && c[4] == PrivateKeyRow;
    assert c[5] == PublicKeyRow && c[6] == AuthorizedKeysRow && c[7] == KnownHostsRow && c[8] == HomeRow;
    assert EvaluateFirst(c, 1, pth, info, home) == Fire(EtcRow, pth, info, home);
    assert EvaluateFirst(c, 2, pth, info, home) == EvaluateFirst(c, 1, pth, info, home) + Fire(EtcSshRow, pth, info, home);
    assert EvaluateFirst(c, 3, pth, info, home) == EvaluateFirst(c, 2, pth, info, home) + Fire(SshDirRow, pth, info, home);
    assert EvaluateFirst(c, 4, pth, info, home) == EvaluateFirst(c, 3, pth, info, home) + Fire(ConfigRow, pth, info, home);
    assert EvaluateFirst(c, 5, pth, info, home) == EvaluateFirst(c, 4, pth, info, home) + Fire(PrivateKeyRow, pth, info, home);
    assert EvaluateFirst(c, 6, pth, info, home) == EvaluateFirst(c, 5, pth, info, home) + Fire(PublicKeyRow, pth, info, home);
    assert EvaluateFirst(c, 7, pth, info, home) == EvaluateFirst(c, 6, pth, info, home) + Fire(AuthorizedKeysRow, pth, info, home);
    assert EvaluateFirst(c, 8, pth, info, home) == EvaluateFirst(c, 7, pth, info, home) + Fire(KnownHostsRow, pth, info, home);
    assert EvaluateFirst(c, 9, pth, info, home) == EvaluateFirst(c, 8, pth, info, home) + Fire(HomeRow, pth, info, home);
  }

  /** `ScanEtcSSH` emits what the `/etc` and `/etc/ssh` rows emit. */
  lemma EtcRuleIsRows(pth: string, info: FileInfo, home: string)
    ensures Sunshine.ScanEtcSSH(pth, info) == Fire(EtcRow, pth, info, home) + Fire(EtcSshRow, pth, info, home)
  {
  }

  /** `ScanUserSSH` emits what the `.ssh` row emits. */
  lemma SshDirRuleIsRow(pth: string, info: FileInfo, home: string)
    ensures Sunshine.ScanUserSSH(pth, info) == Fire(SshDirRow, pth, info, home)
  {
  }

  /** `ScanSSHConfig` emits what the `config` row emits. */
  lemma ConfigRuleIsRow(pth: string, info: FileInfo, home: string)
    ensures Sunshine.ScanSSHConfig(pth, info) == Fire(ConfigRow, pth, info, home)
  {
  }

  /** `ScanSSHKeys` emits what the private-key and public-key rows emit. */
  lemma KeyRuleIsRows(pth: string, info: FileInfo, home: string)
    ensures Sunshine.ScanSSHKeys(pth, info) == Fire(PrivateKeyRow, pth, info, home) + Fire(PublicKeyRow, pth, info, home)
  {
    var priv, pub := Fire(PrivateKeyRow, pth, info, home), Fire(PublicKeyRow, pth, info, home);
    if IsPublicKeyName(info.name) {
      assert priv == [];
      assert priv + pub == pub;
    } else {
      assert pub == [];
      assert priv + pub == priv;
    }
  }

  /** `ScanSSHAuthorizedKeys` emits what the `authorized_keys` row emits. */
  lemma AuthorizedKeysRuleIsRow(pth: string, info: FileInfo, home: string)
    ensures Sunshine.ScanSSHAuthorizedKeys(pth, info) == Fire(AuthorizedKeysRow, pth, info, home)
  {
  }

  /** `ScanSSHKnownHosts` emits what the `known_hosts` row emits. */
  lemma KnownHostsRuleIsRow(pth: string, info: FileInfo, home: string)
    ensures Sunshine.ScanSSHKnownHosts(pth, info) == Fire(KnownHostsRow, pth, info, home)
  {
  }

  /** `ScanHome` emits what the home row emits. */
  lemma HomeRuleIsRow(pth: string, info: FileInfo, home: string)
    ensures Sunshine.ScanHome(home, pth, info) == Fire(HomeRow, pth, info, home)
  {
  }

  /**
    The seven rules of the scanner, run in their fixed order, emit exactly
    what the table emits: the same warnings in the same order.
   */
  lemma ScannerFollowsCatalog(pth: string, info: FileInfo, home: string)
    ensures Sunshine.ScanEntry(pth, info, home) == Evaluate(Catalog, pth, info, home)
  {
    var r0, r1, r2 := Sunshine.ScanEtcSSH(pth, info), Sunshine.ScanUserSSH(pth, info), Sunshine.ScanSSHConfig(pth, info);
    var r3, r4 := Sunshine.ScanSSHKeys(pth, info), Sunshine.ScanSSHAuthorizedKeys(pth, info);
    var r5, r6 := Sunshine.ScanSSHKnownHosts(pth, info), Sunshine.ScanHome(home, pth, info);
    var f0, f1, f2 := Fire(EtcRow, pth, info, home), Fire(EtcSshRow, pth, info, home), Fire(SshDirRow, pth, info, home);
    var f3, f4, f5 := Fire(ConfigRow, pth, info, home), Fire(PrivateKeyRow, pth, info, home), Fire(PublicKeyRow, pth, info, home);
    var f6, f7, f8 := Fire(AuthorizedKeysRow, pth, info, home), Fire(KnownHostsRow, pth, info, home), Fire(HomeRow, pth, info, home);
    calc {
      Sunshine.ScanEntry(pth, info, home);
      r0 + r1 + r2 + r3 + r4 + r5 + r6;
      { EtcRuleIsRows(pth, info, home); }
      (f0 + f1) + r1 + r2 + r3 + r4 + r5 + r6;
      { SshDirRuleIsRow(pth, info, home); }
      f0 + f1 + f2 + r2 + r3 + r4 + r5 + r6;
      { ConfigRuleIsRow(pth, info, home); }
      f0 + f1 + f2 + f3 + r3 + r4 + r5 + r6;
      { KeyRuleIsRows(pth, info, home); }
      f0 + f1 + f2 + f3 + (f4 + f5) + r4 + r5 + r6;
      { SeqAssoc(f0 + f1 + f2 + f3, f4, f5); }
      f0 + f1 + f2 + f3 + f4 + f5 + r4 + r5 + r6;
      { AuthorizedKeysRuleIsRow(pth, info, home); }
      f0 + f1 + f2 + f3 + f4 + f5 + f6 + r5 + r6;
      { KnownHostsRuleIsRow(pth, info, home); }
      f0 + f1 + f2 + f3 + f4 + f5 + f6 + f7 + r6;
      { HomeRuleIsRow(pth, info, home); }
      f0 + f1 + f2 + f3 + f4 + f5 + f6 + f7 + f8;
      { CatalogInOrder(pth, info, home); }
      Evaluate(Catalog, pth, info, home);
    }
  }

  /**
    For the scanner itself: a warning is emitted for an entry exactly when a
    row of the table selects it and the entry fails that row's check.
   */
  lemma ScannerWarnsIff(pth: string, info: FileInfo, home: string, w: string)
    ensures w in Sunshine.ScanEntry(pth, info, home) <==>
              exists i :: 0 <= i < |Catalog| && Selects(Catalog[i].matcher, pth, info.name, home) && Violation(Catalog[i], pth, info, w)
  {
    ScannerFollowsCatalog(pth, info, home);
    EvaluateWarnsIff(Catalog, |Catalog|, pth, info, home, w);
  }

  /** An entry meeting every row that selects it passes the scanner's rules silently. */
  lemma ScannerSilentOnConforming(pth: string, info: FileInfo, home: string)
    requires forall i :: 0 <= i < |Catalog| && Selects(Catalog[i].matcher, pth, info.name, home) ==>
               KindHolds(Catalog[i], info) && Perm(info.mode) == Catalog[i].perm
    ensures Sunshine.ScanEntry(pth, info, home) == []
  {
    ScannerFollowsCatalog(pth, info, home);
    ConformingIsSilent(Catalog, |Catalog|, pth, info, home);
  }
}

=== FILE: scenarios.dfy ===
/**
  Worked examples of single entries under both scanners: which warnings an
  entry draws, in which order, and with which text.
 */
module Scenarios {
  import opened Wrappers
  import opened FileSystem
  import opened Octal
  import opened Paths
  import opened Patterns
  import opened Messages
  import Sunshine
  import Carrots
  import Seqs

  /** A plain, existing entry: `os.Stat` finds it and it is no link, so its `os.Readlink` answer is never consulted. */
  function Plain(pth: string, info: FileInfo): Entry {
    Entry(Visit(pth, info), StatOk, LinkFailed(OsFault("invalid argument")))
  }

  /** The `.ssh` example's warning as printed. */
  lemma SshDirectoryText(pth: string)
    ensures ChmodWarning(pth, 448, 493) == pth + ": expected chmod 0700, got 0755"
  {
    ExpectedModeNumerals();
    assert ": expected chmod " + "0700" + ", got " + "0755" == ": expected chmod 0700, got 0755";
    Seqs.SeqAssoc4(pth, ": expected chmod ", "0700", ", got ", "0755");
  }

  /** The `authorized_keys` example's warning as printed. */
  lemma AuthorizedKeysText(pth: string)
    ensures ChmodWarning(pth, 384, 420) == pth + ": expected chmod 0600, got 0644"
  {
    ExpectedModeNumerals();
    assert ": expected chmod " + "0600" + ", got " + "0644" == ": expected chmod 0600, got 0644";
    Seqs.SeqAssoc4(pth, ": expected chmod ", "0600", ", got ", "0644");
  }

  /** The kind warning for a directory where a file is expected, as printed. */
  lemma FileExpectedText(pth: string)
    ensures KindWarning(pth, File) == pth + ": expected file, got directory"
  {
    assert ": expected " + "file" + ", got " + "directory" == ": expected file, got directory";
    Seqs.SeqAssoc4(pth, ": expected ", "file", ", got ", "directory");
  }

  /** `id_rsa.pub` matches the public-key pattern. */
  lemma RsaPublicKeyName()
    ensures IsPublicKeyName("id_rsa.pub")
  {
    var name := "id_rsa.pub";
    assert name[..3] == "id_";
    assert name[|name| - 4..] == ".pub";
    var mid := name[3..|name| - 4];
    assert mid == "rsa";
    assert NoNewline(mid);
  }

  /** An existing entry that is no link is judged at its own path. */
  lemma PlainWalk(pth: string, info: FileInfo, home: string)
    requires !IsSymlink(info.mode)
    ensures Sunshine.Walk(Plain(pth, info), home) == Sunshine.Step(Sunshine.ScanEntry(pth, info, home), None)
  {
  }

  /** Any `.ssh` directory with mode 0755 draws one warning, "expected chmod 0700, got 0755". */
  lemma SshDirectoryTooOpen(pth: string, info: FileInfo, home: string)
    requires info.name == ".ssh" && IsDir(info.mode) && !IsSymlink(info.mode) && Perm(info.mode) == 493
    requires pth != "/etc" && pth != "/etc/ssh" && home != ".ssh"
    ensures Sunshine.Walk(Plain(pth, info), home) == Sunshine.Step([ChmodWarning(pth, 448, 493)], None)
  {
    var ssh := Sunshine.ScanUserSSH(pth, info);
    KeyNameInitial(info.name);
    calc {
      Sunshine.Walk(Plain(pth, info), home);
    == { PlainWalk(pth, info, home); }
      Sunshine.Step(Sunshine.ScanEntry(pth, info, home), None);
    == { Sunshine.NameRulesOnly(pth, info, home); }
      Sunshine.Step(ssh + Sunshine.ScanSSHAuthorizedKeys(pth, info) + Sunshine.ScanSSHKnownHosts(pth, info), None);
    == { assert Sunshine.ScanSSHAuthorizedKeys(pth, info) == [] && Sunshine.ScanSSHKnownHosts(pth, info) == [];
         assert ssh + [] + [] == ssh; }
      Sunshine.Step(ssh, None);
    == { assert ssh == [ChmodWarning(pth, 448, 493)]; }
      Sunshine.Step([ChmodWarning(pth, 448, 493)], None);
    }
  }

  /** Any `authorized_keys` file with mode 0644 draws "expected chmod 0600, got 0644". */
  lemma AuthorizedKeysTooOpen(pth: string, info: FileInfo, home: string)
    requires info.name == "authorized_keys" && !IsDir(info.mode) && !IsSymlink(info.mode) && Perm(info.mode) == 420
    requires pth != "/etc" && pth != "/etc/ssh" && home != "authorized_keys"
    ensures Sunshine.Walk(Plain(pth, info), home) == Sunshine.Step([ChmodWarning(pth, 384, 420)], None)
  {
    var auth := Sunshine.ScanSSHAuthorizedKeys(pth, info);
    KeyNameInitial(info.name);
    calc {
      Sunshine.Walk(Plain(pth, info), home);
    == { PlainWalk(pth, info, home); }
      Sunshine.Step(Sunshine.ScanEntry(pth, info, home), None);
    == { Sunshine.NameRulesOnly(pth, info, home); }
      Sunshine.Step(Sunshine.ScanUserSSH(pth, info) + auth + Sunshine.ScanSSHKnownHosts(pth, info), None);
    == { assert Sunshine.ScanUserSSH(pth, info) == [] && Sunshine.ScanSSHKnownHosts(pth, info) == [];
         assert [] + auth + [] == auth; }
      Sunshine.Step(auth, None);
    == { assert auth == [ChmodWarning(pth, 384, 420)]; }
      Sunshine.Step([ChmodWarning(pth, 384, 420)], None);
    }
  }

  /** A public key `id_rsa.pub` with mode 0600 inside any `.ssh` directory is asked to be 0644. */
  lemma PublicKeyTooClosed(dir: string, info: FileInfo, home: string)
    requires dir == "" || dir[|dir| - 1] == '/'
    requires info.name == "id_rsa.pub" && !IsDir(info.mode) && !IsSymlink(info.mode) && Perm(info.mode) == 384
    requires home != "id_rsa.pub"
    ensures var pth := dir + ".ssh" + "/" + "id_rsa.pub";
            Sunshine.Walk(Plain(pth, info), home) == Sunshine.Step([ChmodWarning(pth, 420, 384)], None)
  {
    var pth := dir + ".ssh" + "/" + "id_rsa.pub";
    ParentNameOfChild(dir, ".ssh", "id_rsa.pub");
    assert pth != "/etc" && pth != "/etc/ssh" by {
      assert pth[|pth| - 1] == 'b';
    }
    RsaPublicKeyName();
    PublicKeyIsKey(info.name);
    var keys := Sunshine.ScanSSHKeys(pth, info);
    calc {
      Sunshine.Walk(Plain(pth, info), home);
    == { PlainWalk(pth, info, home); }
      Sunshine.Step(Sunshine.ScanEntry(pth, info, home), None);
    ==
      Sunshine.Step(Sunshine.ScanEtcSSH(pth, info) + Sunshine.ScanUserSSH(pth, info) + Sunshine.ScanSSHConfig(pth, info) + keys
      + Sunshine.ScanSSHAuthorizedKeys(pth, info) + Sunshine.ScanSSHKnownHosts(pth, info) + Sunshine.ScanHome(home, pth, info), None);
    == { assert Sunshine.ScanEtcSSH(pth, info) == [];
         assert Sunshine.ScanUserSSH(pth, info) == [];
         assert Sunshine.ScanSSHConfig(pth, info) == [];
         assert Sunshine.ScanSSHAuthorizedKeys(pth, info) == [];
         assert Sunshine.ScanSSHKnownHosts(pth, info) == [];
         assert Sunshine.ScanHome(home, pth, info) == [];
         assert [] + [] + [] + keys + [] + [] + [] == keys; }
      Sunshine.Step(keys, None);
    == { assert Sunshine.KeyPerm(info.name) == 420; }
      Sunshine.Step([ChmodWarning(pth, 420, 384)], None);
    }
  }

  /** `/etc/ssh` with mode 0700 is asked to be 0755, whatever the home directory is. */
  lemma EtcSshTooClosed(home: string)
    requires home != "ssh"
    ensures Sunshine.Walk(Plain("/etc/ssh", FileInfo("ssh", DirMode(448))), home)
              == Sunshine.Step([ChmodWarning("/etc/ssh", 493, 448)], None)
  {
    var info := FileInfo("ssh", DirMode(448));
    var etc := Sunshine.ScanEtcSSH("/etc/ssh", info);
    KeyNameInitial(info.name);
    calc {
      Sunshine.ScanEntry("/etc/ssh", info, home);
    ==
      etc + Sunshine.ScanUserSSH("/etc/ssh", info) + Sunshine.ScanSSHConfig("/etc/ssh", info) + Sunshine.ScanSSHKeys("/etc/ssh", info)
      + Sunshine.ScanSSHAuthorizedKeys("/etc/ssh", info) + Sunshine.ScanSSHKnownHosts("/etc/ssh", info) + Sunshine.ScanHome(home, "/etc/ssh", info);
    == { assert Sunshine.ScanUserSSH("/etc/ssh", info) == [];
         assert Sunshine.ScanSSHConfig("/etc/ssh", info) == [];
         assert Sunshine.ScanSSHKeys("/etc/ssh", info) == [];
         assert Sunshine.ScanSSHAuthorizedKeys("/etc/ssh", info) == [];
         assert Sunshine.ScanSSHKnownHosts("/etc/ssh", info) == [];
         assert Sunshine.ScanHome(home, "/etc/ssh", info) == []; }
      etc + [] + [] + [] + [] + [] + [];
    == { assert etc + [] + [] + [] + [] + [] + [] == etc; }
      etc;
    ==
      [ChmodWarning("/etc/ssh", 493, 448)];
    }
  }

  /**
    A directory named `known_hosts` with mode 0755 fails both checks of its
    rule: the kind warning comes first, then the mode warning.
   */
  lemma KnownHostsDirectory(pth: string, info: FileInfo, home: string)
    requires info.name == "known_hosts" && IsDir(info.mode) && !IsSymlink(info.mode) && Perm(info.mode) == 493
    requires pth != "/etc" && pth != "/etc/ssh" && home != "known_hosts"
    ensures Sunshine.Walk(Plain(pth, info), home)
              == Sunshine.Step([KindWarning(pth, File), ChmodWarning(pth, 420, 493)], None)
  {
    var known := Sunshine.ScanSSHKnownHosts(pth, info);
    KeyNameInitial(info.name);
    calc {
      Sunshine.Walk(Plain(pth, info), home);
    == { PlainWalk(pth, info, home); }
      Sunshine.Step(Sunshine.ScanEntry(pth, info, home), None);
    == { Sunshine.NameRulesOnly(pth, info, home); }
      Sunshine.Step(Sunshine.ScanUserSSH(pth, info) + Sunshine.ScanSSHAuthorizedKeys(pth, info) + known, None);
    == { assert Sunshine.ScanUserSSH(pth, info) == [] && Sunshine.ScanSSHAuthorizedKeys(pth, info) == [];
         assert [] + [] + known == known; }
      Sunshine.Step(known, None);
    == { assert known == [KindWarning(pth, File), ChmodWarning(pth, 420, 493)]; }
      Sunshine.Step([KindWarning(pth, File), ChmodWarning(pth, 420, 493)], None);
    }
  }

  /**
    A link named `authorized_keys` with mode 0777 that points at `target` is
    judged by the link's own mode, and the warning names the target.
   */
  lemma LinkWarningNamesTarget(pth: string, target: string, info: FileInfo, home: string)
    requires info.name == "authorized_keys" && !IsDir(info.mode) && IsSymlink(info.mode) && Perm(info.mode) == 511
    requires target != "/etc" && target != "/etc/ssh" && home != "authorized_keys"
    ensures Sunshine.Walk(Entry(Visit(pth, info), StatOk, LinkTarget(target)), home)
              == Sunshine.Step([ChmodWarning(target, 384, 511)], None)
  {
    var auth := Sunshine.ScanSSHAuthorizedKeys(target, info);
    KeyNameInitial(info.name);
    calc {
      Sunshine.Walk(Entry(Visit(pth, info), StatOk, LinkTarget(target)), home);
    ==
      Sunshine.Step(Sunshine.ScanEntry(target, info, home), None);
    == { Sunshine.NameRulesOnly(target, info, home); }
      Sunshine.Step(Sunshine.ScanUserSSH(target, info) + auth + Sunshine.ScanSSHKnownHosts(target, info), None);
    == { assert Sunshine.ScanUserSSH(target, info) == [] && Sunshine.ScanSSHKnownHosts(target, info) == [];
         assert [] + auth + [] == auth; }
      Sunshine.Step(auth, None);
    == { assert auth == [ChmodWarning(target, 384, 511)]; }
      Sunshine.Step([ChmodWarning(target, 384, 511)], None);
    }
  }

  /** An entry that has vanished by the time it is checked ends its root with "<path>: not found". */
  lemma VanishedEntryEndsRoot(pth: string, info: FileInfo, link: ReadlinkResult, rest: seq<Entry>, home: string)
    ensures var r := Sunshine.WalkRoot([Entry(Visit(pth, info), StatNotExist, link)] + rest, home);
            r.warnings == [] && r.error == Some(Sunshine.NotFound(pth))
            && r.error.value.Message() == pth + ": not found"
  {
    var e := Entry(Visit(pth, info), StatNotExist, link);
    var entries := [e] + rest;
    assert entries[0] == e;
    Sunshine.WalkRootFirstError(entries, 0, home);
    assert entries[..0] == [];
  }

  /**
    A regular file named `.ssh` with mode 0700 satisfies the older scanner,
    which checks the mode only; the current scanner reports its kind.
   */
  lemma OlderScannerIgnoresKind(pth: string, home: string)
    requires pth != "/etc" && pth != "/etc/ssh" && home != ".ssh"
    ensures Carrots.Found(pth, FileInfo(".ssh", FileModeOf(448))) == []
    ensures Sunshine.ScanEntry(pth, FileInfo(".ssh", FileModeOf(448)), home) == [KindWarning(pth, Directory)]
  {
    var info := FileInfo(".ssh", FileModeOf(448));
    KeyNameInitial(info.name);
    Sunshine.NameRulesOnly(pth, info, home);
    assert Sunshine.ScanUserSSH(pth, info) == [KindWarning(pth, Directory)];
    assert Sunshine.ScanSSHAuthorizedKeys(pth, info) == [];
    assert Sunshine.ScanSSHKnownHosts(pth, info) == [];
  }

  /** A failed home-directory lookup scans nothing, whatever the roots hold. */
  lemma HomeFailureScansNothing(err: OsError, roots: seq<seq<Entry>>)
    ensures Sunshine.Illuminate(Sunshine.NoHomeDir(err), roots) == Sunshine.Failed(err)
  {
  }
}

=== FILE: seqs.dfy ===
/** Facts about sequences of sequences shared by the two scanners' accumulators. */
module Seqs {

  /** The lists of a sequence of lists, one after the other. */
  function Flatten<T>(xss: seq<seq<T>>): seq<T>
    decreases |xss|
  {
    if |xss| == 0 then [] else Flatten(xss[..|xss| - 1]) + xss[|xss| - 1]
  }

  lemma SeqAssoc<T>(x: seq<T>, y: seq<T>, z: seq<T>)
    ensures x + y + z == x + (y + z)
  {
  }

  /** Regrouping a five-part concatenation after its first part. */
  lemma SeqAssoc4<T>(a: seq<T>, b: seq<T>, c: seq<T>, d: seq<T>, e: seq<T>)
    ensures a + b + c + d + e == a + (b + c + d + e)
  {
  }

  /** `f` applied to every element, in order. */
  function Map<A, B>(f: A -> B, s: seq<A>): (r: seq<B>)
    ensures |r| == |s|
    ensures forall i :: 0 <= i < |s| ==> r[i] == f(s[i])
  {
    seq(|s|, i requires 0 <= i < |s| => f(s[i]))
  }

  /** Mapping distributes over concatenation. */
  lemma MapAppend<A, B>(f: A -> B, a: seq<A>, b: seq<A>)
    ensures Map(f, a + b) == Map(f, a) + Map(f, b)
  {
    var l, r := Map(f, a + b), Map(f, a) + Map(f, b);
    forall i | 0 <= i < |l|
      ensures l[i] == r[i]
    {
      if i < |a| {
        assert (a + b)[i] == a[i];
      } else {
        assert (a + b)[i] == b[i - |a|];
      }
    }
  }

  /** Flattening distributes over concatenation. */
  lemma {:induction false} FlattenAppend<T>(a: seq<seq<T>>, b: seq<seq<T>>)
    ensures Flatten(a + b) == Flatten(a) + Flatten(b)
    decreases |b|
  {
    if |b| == 0 {
      assert a + b == a;
    } else {
      var n := |b| - 1;
      calc {
        Flatten(a + b);
      == { assert (a + b)[..|a + b| - 1] == a + b[..n]; }
        Flatten(a + b[..n]) + b[n];
      == { FlattenAppend(a, b[..n]); }
        Flatten(a) + Flatten(b[..n]) + b[n];
      == { SeqAssoc(Flatten(a), Flatten(b[..n]), b[n]); }
        Flatten(a) + Flatten(b);
      }
    }
  }

  /** An element is in the flattening exactly when it is in one of the lists. */
  lemma {:induction false} FlattenHas<T>(xss: seq<seq<T>>, x: T)
    ensures x in Flatten(xss) <==> exists i :: 0 <= i < |xss| && x in xss[i]
    decreases |xss|
  {
    if |xss| > 0 {
      var n := |xss| - 1;
      var init := xss[..n];
      FlattenHas(init, x);
      assert Flatten(xss) == Flatten(init) + xss[n];
      if exists i :: 0 <= i < |xss| && x in xss[i] {
        var i :| 0 <= i < |xss| && x in xss[i];
        if i < n {
          assert init[i] == xss[i];
        }
      }
      if exists i :: 0 <= i < |init| && x in init[i] {
        var i :| 0 <= i < |init| && x in init[i];
        assert xss[i] == init[i];
      }
    }
  }

  /** The flattening is empty exactly when every list is. */
  lemma {:induction false} FlattenEmpty<T>(xss: seq<seq<T>>)
    ensures Flatten(xss) == [] <==> forall i :: 0 <= i < |xss| ==> xss[i] == []
    decreases |xss|
  {
    if |xss| > 0 {
      var n := |xss| - 1;
      var init := xss[..n];
      FlattenEmpty(init);
      assert Flatten(xss) == Flatten(init) + xss[n];
      assert forall i :: 0 <= i < n ==> init[i] == xss[i];
    }
  }
}

=== FILE: sunshine.dfy ===
/**
  The current scanner: seven fixed permission rules applied to every entry a
  root's traversal visits, the per-entry driver `Walk` (existence check and
  symbolic-link step), the fail-fast fold of `Walk` over one root, and the
  session that resolves the home directory once and then scans every root.
 */
module Sunshine {
  import opened Wrappers
  import opened FileSystem
  import opened Paths
  import opened Patterns
  import opened Messages
  import opened Seqs

  /** 0o755: `/etc` and `/etc/ssh`. */
  const EtcPerm: nat := 493
  /** 0o700: a `.ssh` directory. */
  const SshDirPerm: nat := 448
  /** 0o400: `.ssh/config`. */
  const ConfigPerm: nat := 256
  /** 0o644: `.ssh/id_*.pub`. */
  const PublicKeyPerm: nat := 420
  /** 0o600: the other `.ssh/id_*` files. */
  const PrivateKeyPerm: nat := 384
  /** 0o600: `authorized_keys`. */
  const AuthorizedKeysPerm: nat := 384
  /** 0o644: `known_hosts`. */
  const KnownHostsPerm: nat := 420
  /** 0o755: the home directory. */
  const HomePerm: nat := 493

  /** The kind the rules see: a directory exactly when the mode's directory bit is set. */
  function KindOf(info: FileInfo): Kind {
    if IsDir(info.mode) then Directory else File
  }

  /**
    The shape of a rule's output: one warning per failed check, kind warning
    `k` exactly when `kindBad`, mode warning `c` exactly when `modeBad`,
    nothing else, `k` before `c`.
   */
  predicate Emits(r: seq<string>, k: string, kindBad: bool, c: string, modeBad: bool) {
    && |r| == (if kindBad then 1 else 0) + (if modeBad then 1 else 0)
    && (forall w :: w in r ==> w == k || w == c)
    && (k in r <==> kindBad)
    && (c in r <==> modeBad)
    && (|r| == 2 ==> r[0] == k && r[1] == c)
  }

  /**
    What a rule that selected an entry must emit: a kind warning exactly when
    the kind is wrong, a mode warning exactly when the permission bits differ,
    nothing else, and the kind warning first when there are both.
   */
  predicate Reports(r: seq<string>, pth: string, want: Kind, got: Kind, expected: nat, observed: nat) {
    Emits(r, KindWarning(pth, want), got != want, ChmodWarning(pth, expected, observed), observed != expected)
  }

  lemma EmitsIsDeterministic(r1: seq<string>, r2: seq<string>, k: string, kindBad: bool, c: string, modeBad: bool)
    requires k != c
    requires Emits(r1, k, kindBad, c, modeBad) && Emits(r2, k, kindBad, c, modeBad)
    ensures r1 == r2
  {
    if |r1| == 1 {
      assert r1[0] in r1 && r2[0] in r2;
    }
  }

  /** `Reports` leaves no freedom: at most one sequence meets it. */
  lemma ReportsIsDeterministic(r1: seq<string>, r2: seq<string>, pth: string, want: Kind, got: Kind, expected: nat, observed: nat)
    requires Reports(r1, pth, want, got, expected, observed)
    requires Reports(r2, pth, want, got, expected, observed)
    ensures r1 == r2
  {
    KindWarningIsNotChmodWarning(pth, want, expected, observed);
    EmitsIsDeterministic(r1, r2, KindWarning(pth, want), got != want,
                         ChmodWarning(pth, expected, observed), observed != expected);
  }

  /** Kind warning `k` if `kindBad`, then mode warning `c` if `modeBad`. */
  function Emit(k: string, kindBad: bool, c: string, modeBad: bool): (r: seq<string>)
    requires k != c
    ensures Emits(r, k, kindBad, c, modeBad)
  {
    (if kindBad then [k] else []) + (if modeBad then [c] else [])
  }

  /**
    The check every rule makes once it has selected an entry: first the kind
    `got` against `want`, then the permission bits `observed` against `expected`.
   */
  function Audit(pth: string, got: Kind, observed: nat, want: Kind, expected: nat): (r: seq<string>)
    ensures Reports(r, pth, want, got, expected, observed)
    ensures |r| <= 2
  {
    KindWarningIsNotChmodWarning(pth, want, expected, observed);
    Emit(KindWarning(pth, want), got != want, ChmodWarning(pth, expected, observed), observed != expected)
  }

  /** `ScanEtcSSH`: `/etc` and `/etc/ssh` must be directories with mode 0755. */
  function ScanEtcSSH(pth: string, info: FileInfo): (r: seq<string>)
    ensures pth != "/etc" && pth != "/etc/ssh" ==> r == []
    ensures pth == "/etc" || pth == "/etc/ssh" ==>
              Reports(r, pth, Directory, KindOf(info), EtcPerm, Perm(info.mode))
  {
    if pth == "/etc" || pth == "/etc/ssh" then Audit(pth, KindOf(info), Perm(info.mode), Directory, EtcPerm) else []
  }

  /** `ScanUserSSH`: an entry named `.ssh` must be a directory with mode 0700. */
  function ScanUserSSH(pth: string, info: FileInfo): (r: seq<string>)
    ensures info.name != ".ssh" ==> r == []
    ensures info.name == ".ssh" ==>
              Reports(r, pth, Directory, KindOf(info), SshDirPerm, Perm(info.mode))
  {
    if info.name == ".ssh" then Audit(pth, KindOf(info), Perm(info.mode), Directory, SshDirPerm) else []
  }

  /** `ScanSSHConfig`: an entry named `config` inside `.ssh` must be a file with mode 0400. */
  function ScanSSHConfig(pth: string, info: FileInfo): (r: seq<string>)
    ensures !(info.name == "config" && ParentName(pth) == ".ssh") ==> r == []
    ensures info.name == "config" && ParentName(pth) == ".ssh" ==>
              Reports(r, pth, File, KindOf(info), ConfigPerm, Perm(info.mode))
  {
    if info.name == "config" && ParentName(pth) == ".ssh" then Audit(pth, KindOf(info), Perm(info.mode), File, ConfigPerm) else []
  }

  /** The mode the key rule expects of a key file name: 0644 for public keys, 0600 otherwise. */
  function KeyPerm(name: string): (p: nat)
    ensures p == PublicKeyPerm <==> IsPublicKeyName(name)
    ensures p == PrivateKeyPerm <==> !IsPublicKeyName(name)
  {
    if IsPublicKeyName(name) then PublicKeyPerm else PrivateKeyPerm
  }

  /**
    `ScanSSHKeys`: an entry inside `.ssh` whose name matches `^id_.+$` must be
    a file, with mode 0644 when the name also matches `^id_.+\.pub$` and 0600
    otherwise.
   */
  function ScanSSHKeys(pth: string, info: FileInfo): (r: seq<string>)
    ensures !(IsKeyName(info.name) && ParentName(pth) == ".ssh") ==> r == []
    ensures IsKeyName(info.name) && ParentName(pth) == ".ssh" && IsPublicKeyName(info.name) ==>
              Reports(r, pth, File, KindOf(info), PublicKeyPerm, Perm(info.mode))
    ensures IsKeyName(info.name) && ParentName(pth) == ".ssh" && !IsPublicKeyName(info.name) ==>
              Reports(r, pth, File, KindOf(info), PrivateKeyPerm, Perm(info.mode))
  {
    var name := info.name;
    if IsKeyName(name) && ParentName(pth) == ".ssh" then Audit(pth, KindOf(info), Perm(info.mode), File, KeyPerm(name)) else []
  }

  /** `ScanSSHAuthorizedKeys`: an entry named `authorized_keys` must be a file with mode 0600. */
  function ScanSSHAuthorizedKeys(pth: string, info: FileInfo): (r: seq<string>)
    ensures info.name != "authorized_keys" ==> r == []
    ensures info.name == "authorized_keys" ==>
              Reports(r, pth, File, KindOf(info), AuthorizedKeysPerm, Perm(info.mode))
  {
    if info.name == "authorized_keys" then Audit(pth, KindOf(info), Perm(info.mode), File, AuthorizedKeysPerm) else []
  }

  /** `ScanSSHKnownHosts`: an entry named `known_hosts` must be a file with mode 0644. */
  function ScanSSHKnownHosts(pth: string, info: FileInfo): (r: seq<string>)
    ensures info.name != "known_hosts" ==> r == []
    ensures info.name == "known_hosts" ==>
              Reports(r, pth, File, KindOf(info), KnownHostsPerm, Perm(info.mode))
  {
    if info.name == "known_hosts" then Audit(pth, KindOf(info), Perm(info.mode), File, KnownHostsPerm) else []
  }

  /**
    `ScanHome`: an entry whose base name equals the home-directory string must
    be a directory with mode 0755. The comparison is between the base name and
    the whole home path, as written.
   */
  function ScanHome(home: string, pth: string, info: FileInfo): (r: seq<string>)
    ensures info.name != home ==> r == []
    ensures info.name == home ==>
              Reports(r, pth, Directory, KindOf(info), HomePerm, Perm(info.mode))
  {
    if info.name == home then Audit(pth, KindOf(info), Perm(info.mode), Directory, HomePerm) else []
  }

  /** The seven rules in the order `Walk` runs them, for the path the rules are shown. */
  function ScanEntry(pth: string, info: FileInfo, home: string): seq<string> {
    ScanEtcSSH(pth, info)
    + ScanUserSSH(pth, info)
    + ScanSSHConfig(pth, info)
    + ScanSSHKeys(pth, info)
    + ScanSSHAuthorizedKeys(pth, info)
    + ScanSSHKnownHosts(pth, info)
    + ScanHome(home, pth, info)
  }

  /**
    The five name rules select disjoint sets of names, so apart from the path
    rule and the home rule at most one of them fires: an entry gets at most six
    warnings.
   */
  lemma AtMostSixWarnings(pth: string, info: FileInfo, home: string)
    ensures |ScanEntry(pth, info, home)| <= 6
  {
    var name := info.name;
    var etc := ScanEtcSSH(pth, info);
    var ssh := ScanUserSSH(pth, info);
    var config := ScanSSHConfig(pth, info);
    var keys := ScanSSHKeys(pth, info);
    var auth := ScanSSHAuthorizedKeys(pth, info);
    var known := ScanSSHKnownHosts(pth, info);
    var homeRule := ScanHome(home, pth, info);
    assert ScanEntry(pth, info, home) == etc + ssh + config + keys + auth + known + homeRule;
    assert IsKeyName(name) ==> name[0] == 'i' by {
      if IsKeyName(name) { assert name[..3][0] == name[0]; }
    }
    assert |ssh| + |config| + |keys| + |auth| + |known| <= 2;
  }

  /**
    Away from `/etc`, an entry whose name is neither the home path, `config`
    nor a key name is judged by the three plain name rules alone.
   */
  lemma NameRulesOnly(pth: string, info: FileInfo, home: string)
    requires pth != "/etc" && pth != "/etc/ssh"
    requires info.name != home && info.name != "config" && !IsKeyName(info.name)
    ensures ScanEntry(pth, info, home) ==
              ScanUserSSH(pth, info) + ScanSSHAuthorizedKeys(pth, info) + ScanSSHKnownHosts(pth, info)
  {
    var ssh := ScanUserSSH(pth, info);
    var auth := ScanSSHAuthorizedKeys(pth, info);
    var known := ScanSSHKnownHosts(pth, info);
    calc {
      ScanEntry(pth, info, home);
    ==
      ScanEtcSSH(pth, info) + ssh + ScanSSHConfig(pth, info) + ScanSSHKeys(pth, info)
      + auth + known + ScanHome(home, pth, info);
    == { assert ScanEtcSSH(pth, info) == [];
         assert ScanSSHConfig(pth, info) == [];
         assert ScanSSHKeys(pth, info) == [];
         assert ScanHome(home, pth, info) == []; }
      [] + ssh + [] + [] + auth + known + [];
    == { assert [] + ssh + [] + [] == ssh; assert ssh + auth + known + [] == ssh + auth + known; }
      ssh + auth + known;
    }
  }

  /**
    The home rule never fires when the home path holds a slash and the base
    name does not, which is the case for every entry other than "/" itself
    whenever the home directory is an absolute path.
   */
  lemma HomeRuleSilentForAbsoluteHome(home: string, pth: string, info: FileInfo)
    requires !SlashFree(home) && SlashFree(info.name)
    ensures ScanHome(home, pth, info) == []
  {
  }

  /** A fault that ends the traversal of a root. */
  datatype WalkError = NotFound(path: string) | Os(err: OsError) {

    /** The error text the session reports. */
    function Message(): string {
      match this
      case NotFound(p) => NotFoundMessage(p)
      case Os(Eof) => "EOF"
      case Os(OsFault(m)) => m
    }
  }

  /** The outcome of one `Walk` call: the warnings it sent and the error it returned. */
  datatype Step = Step(warnings: seq<string>, error: Option<WalkError>)

  /** The path the rules see: the link target for a symbolic link whose target could be read. */
  function RulePath(e: Entry): string {
    if IsSymlink(e.visit.info.mode) && e.readlink.LinkTarget? then e.readlink.target else e.visit.path
  }

  /**
    `Walk`, the function `filepath.Walk` calls for every visited entry. An
    entry that `os.Stat` no longer finds yields "not found" and no rule runs.
    For a symbolic link only the path is replaced by the `os.Readlink` target;
    the rules still see the link's own name, kind and mode. A failing
    `os.Readlink` yields its error and no rule runs. Other `os.Stat` failures
    are ignored.
   */
  function Walk(e: Entry, home: string): (r: Step)
    ensures e.stat.StatNotExist? ==> r == Step([], Some(NotFound(e.visit.path)))
    ensures !e.stat.StatNotExist? && IsSymlink(e.visit.info.mode) && e.readlink.LinkFailed? ==>
              r == Step([], Some(Os(e.readlink.err)))
    ensures r.error.None? <==>
              !e.stat.StatNotExist? && (IsSymlink(e.visit.info.mode) ==> e.readlink.LinkTarget?)
    ensures r.error.Some? ==> r.warnings == []
    ensures r.error.None? ==> r.warnings == ScanEntry(RulePath(e), e.visit.info, home)
  {
    if e.stat.StatNotExist? then
      Step([], Some(NotFound(e.visit.path)))
    else if IsSymlink(e.visit.info.mode) then
      match e.readlink
      case LinkFailed(err) => Step([], Some(Os(err)))
      case LinkTarget(target) => Step(ScanEntry(target, e.visit.info, home), None)
    else
      Step(ScanEntry(e.visit.path, e.visit.info, home), None)
  }

  /**
    A symbolic link is judged exactly like a non-link entry lying at the link's
    target path that carries the link's own name, kind and permission bits;
    the target's own metadata plays no part.
   */
  lemma SymlinkJudgedByOwnInfo(e: Entry, home: string)
    requires !e.stat.StatNotExist? && IsSymlink(e.visit.info.mode) && e.readlink.LinkTarget?
    ensures var info := FileInfo(e.visit.info.name, WithoutSymlinkBit(e.visit.info.mode));
            Walk(e, home) == Walk(Entry(Visit(e.readlink.target, info), StatOk, e.readlink), home)
  {
    var info := FileInfo(e.visit.info.name, WithoutSymlinkBit(e.visit.info.mode));
    RulesSeeNameKindAndPerm(e.readlink.target, e.visit.info, info, home);
  }

  /** The rules read an entry's name, kind and permission bits and nothing else of its mode. */
  lemma RulesSeeNameKindAndPerm(pth: string, a: FileInfo, b: FileInfo, home: string)
    requires a.name == b.name && IsDir(a.mode) == IsDir(b.mode) && Perm(a.mode) == Perm(b.mode)
    ensures ScanEntry(pth, a, home) == ScanEntry(pth, b, home)
  {
    assert KindOf(a) == KindOf(b);
    calc {
      ScanEntry(pth, a, home);
    ==
      ScanEtcSSH(pth, a) + ScanUserSSH(pth, a) + ScanSSHConfig(pth, a) + ScanSSHKeys(pth, a)
      + ScanSSHAuthorizedKeys(pth, a) + ScanSSHKnownHosts(pth, a) + ScanHome(home, pth, a);
    == { assert ScanEtcSSH(pth, a) == ScanEtcSSH(pth, b);
         assert ScanUserSSH(pth, a) == ScanUserSSH(pth, b);
         assert ScanSSHConfig(pth, a) == ScanSSHConfig(pth, b);
         assert ScanSSHKeys(pth, a) == ScanSSHKeys(pth, b); }
      ScanEtcSSH(pth, b) + ScanUserSSH(pth, b) + ScanSSHConfig(pth, b) + ScanSSHKeys(pth, b)
      + ScanSSHAuthorizedKeys(pth, a) + ScanSSHKnownHosts(pth, a) + ScanHome(home, pth, a);
    == { assert ScanSSHAuthorizedKeys(pth, a) == ScanSSHAuthorizedKeys(pth, b);
         assert ScanSSHKnownHosts(pth, a) == ScanSSHKnownHosts(pth, b);
         assert ScanHome(home, pth, a) == ScanHome(home, pth, b); }
      ScanEtcSSH(pth, b) + ScanUserSSH(pth, b) + ScanSSHConfig(pth, b) + ScanSSHKeys(pth, b)
      + ScanSSHAuthorizedKeys(pth, b) + ScanSSHKnownHosts(pth, b) + ScanHome(home, pth, b);
    ==
      ScanEntry(pth, b, home);
    }
  }

  /** The result of traversing one root: the warnings sent and the error `filepath.Walk` returned. */
  datatype RootResult = RootResult(warnings: seq<string>, error: Option<WalkError>)

  /**
    The fail-fast fold of `filepath.Walk` over the outcomes of the callback,
    in visiting order: warnings accumulate until the first error, which ends
    the traversal and is returned; later outcomes play no part.
   */
  function Traverse(steps: seq<Step>): (r: RootResult)
    ensures r.error.None? <==> forall i :: 0 <= i < |steps| ==> steps[i].error.None?
    ensures r.error.Some? ==> exists i :: 0 <= i < |steps| && steps[i].error == r.error
    decreases |steps|
  {
    if |steps| == 0 then
      RootResult([], None)
    else if steps[0].error.Some? then
      RootResult(steps[0].warnings, steps[0].error)
    else
      var rest := Traverse(steps[1..]);
      assert forall i :: 1 <= i < |steps| ==> steps[i] == steps[1..][i - 1];
      RootResult(steps[0].warnings + rest.warnings, rest.error)
  }

  /** Traversing `a` then `b` without an error in `a` concatenates the two results. */
  lemma {:induction false} TraverseAppend(a: seq<Step>, b: seq<Step>)
    requires Traverse(a).error.None?
    ensures Traverse(a + b) == RootResult(Traverse(a).warnings + Traverse(b).warnings, Traverse(b).error)
    decreases |a|
  {
    if |a| == 0 {
      assert a + b == b;
    } else {
      var x, y, z := a[0].warnings, Traverse(a[1..]).warnings, Traverse(b).warnings;
      calc {
        Traverse(a + b);
      == { assert (a + b)[0] == a[0]; assert (a + b)[1..] == a[1..] + b; }
        RootResult(x + Traverse(a[1..] + b).warnings, Traverse(a[1..] + b).error);
      == { TraverseAppend(a[1..], b); }
        RootResult(x + (y + z), Traverse(b).error);
      == { SeqAssoc(x, y, z); }
        RootResult(Traverse(a).warnings + z, Traverse(b).error);
      }
    }
  }

  /** Once an error has occurred, later steps change nothing: the traversal is fail-fast. */
  lemma {:induction false} TraverseStopsAtError(a: seq<Step>, b: seq<Step>)
    requires Traverse(a).error.Some?
    ensures Traverse(a + b) == Traverse(a)
    decreases |a|
  {
    assert (a + b)[0] == a[0];
    if a[0].error.None? {
      assert (a + b)[1..] == a[1..] + b;
      TraverseStopsAtError(a[1..], b);
    }
  }

  /** One more step after an error-free prefix adds its warnings and its error. */
  lemma TraverseSnoc(done: seq<Step>, step: Step)
    requires Traverse(done).error.None?
    ensures Traverse(done + [step]) == RootResult(Traverse(done).warnings + step.warnings, step.error)
  {
    TraverseAppend(done, [step]);
    assert [step][1..] == [];
    if step.error.None? {
      assert Traverse([step]).warnings == step.warnings + [];
    }
  }

  /**
    The result when step `k` is the first to fail: the warnings of the steps
    before `k`, followed by those of step `k`, and the error of step `k`.
   */
  lemma TraverseFirstError(steps: seq<Step>, k: nat)
    requires k < |steps|
    requires forall j :: 0 <= j < k ==> steps[j].error.None?
    requires steps[k].error.Some?
    ensures Traverse(steps) == RootResult(Traverse(steps[..k]).warnings + steps[k].warnings, steps[k].error)
  {
    var pre := steps[..k];
    assert forall j :: 0 <= j < |pre| ==> pre[j] == steps[j];
    assert steps == pre + steps[k..];
    TraverseAppend(pre, steps[k..]);
    assert steps[k..][0] == steps[k];
  }

  /** The callback with the home directory fixed. */
  function WalkWith(home: string): Entry -> Step {
    e => Walk(e, home)
  }

  /** The outcomes of the callback for each visited entry of a root. */
  function Steps(entries: seq<Entry>, home: string): (steps: seq<Step>)
    ensures |steps| == |entries|
    ensures forall i :: 0 <= i < |entries| ==> steps[i] == Walk(entries[i], home)
  {
    Map(WalkWith(home), entries)
  }

  lemma StepsAppend(a: seq<Entry>, b: seq<Entry>, home: string)
    ensures Steps(a + b, home) == Steps(a, home) + Steps(b, home)
  {
    MapAppend(WalkWith(home), a, b);
  }

  /**
    `filepath.Walk(root, scanner.Walk)` over the entries of one root in the
    order the traversal visits them. `Walk` has no effect in the model besides
    its result, so the outcomes of entries after the first error, which the
    traversal never computes, are simply ignored by `Traverse`.
   */
  function WalkRoot(entries: seq<Entry>, home: string): (r: RootResult)
    ensures r.error.None? <==> forall i :: 0 <= i < |entries| ==> Passes(entries[i], home)
  {
    Traverse(Steps(entries, home))
  }

  predicate Passes(e: Entry, home: string) {
    Walk(e, home).error.None?
  }

  /**
    A root whose entry `k` is the first to fail yields the warnings of the
    entries before `k` and the error of entry `k`; entry `k` itself and every
    later entry contribute no warning.
   */
  lemma WalkRootFirstError(entries: seq<Entry>, k: nat, home: string)
    requires k < |entries|
    requires forall j :: 0 <= j < k ==> Passes(entries[j], home)
    requires !Passes(entries[k], home)
    ensures WalkRoot(entries, home) ==
              RootResult(WalkRoot(entries[..k], home).warnings, Walk(entries[k], home).error)
  {
    var steps := Steps(entries, home);
    TraverseFirstError(steps, k);
    assert steps[..k] == Steps(entries[..k], home);
  }

  /** The warnings of an error-free prefix of a root's entries are kept in the root's result. */
  lemma WalkRootKeepsEarlierWarnings(prefix: seq<Entry>, rest: seq<Entry>, home: string)
    requires WalkRoot(prefix, home).error.None?
    ensures WalkRoot(prefix, home).warnings <= WalkRoot(prefix + rest, home).warnings
  {
    StepsAppend(prefix, rest, home);
    TraverseAppend(Steps(prefix, home), Steps(rest, home));
  }

  /** A root whose entries each pass without warnings yields no warnings and no error. */
  lemma WalkRootConforming(entries: seq<Entry>, home: string)
    requires forall i :: 0 <= i < |entries| ==> Walk(entries[i], home) == Step([], None)
    ensures WalkRoot(entries, home) == RootResult([], None)
  {
    TraverseSilent(Steps(entries, home));
  }

  lemma {:induction false} TraverseSilent(steps: seq<Step>)
    requires forall i :: 0 <= i < |steps| ==> steps[i] == Step([], None)
    ensures Traverse(steps) == RootResult([], None)
    decreases |steps|
  {
    if |steps| > 0 {
      assert forall i :: 0 <= i < |steps| - 1 ==> steps[1..][i] == steps[i + 1];
      TraverseSilent(steps[1..]);
    }
  }

  /**
    The traversal as `filepath.Walk` runs it: one callback outcome at a time,
    stopping at the first error and never looking at later outcomes.
   */
  method TraverseLoop(steps: seq<Step>) returns (warnings: seq<string>, error: Option<WalkError>)
    ensures RootResult(warnings, error) == Traverse(steps)
  {
    warnings := [];
    error := None;
    var i := 0;
    while i < |steps| && error.None?
      invariant 0 <= i <= |steps|
      invariant error.None? ==> RootResult(warnings, error) == Traverse(steps[..i])
      invariant error.Some? ==> RootResult(warnings, error) == Traverse(steps)
      decreases |steps| - i
    {
      var step := steps[i];
      assert steps[..i + 1] == steps[..i] + [step];
      TraverseSnoc(steps[..i], step);
      if step.error.Some? {
        assert steps == steps[..i + 1] + steps[i + 1..];
        TraverseStopsAtError(steps[..i + 1], steps[i + 1..]);
      }
      warnings := warnings + step.warnings;
      error := step.error;
      i := i + 1;
    }
    if error.None? {
      assert steps[..i] == steps;
    }
  }

  /**
    The per-root task of `Illuminate`: the traversal's warnings, and its error
    unless that error is `io.EOF`.
   */
  function ScanRoot(entries: seq<Entry>, home: string): (r: RootResult)
    ensures r.warnings == WalkRoot(entries, home).warnings
    ensures r.error.Some? <==> WalkRoot(entries, home).error.Some? && WalkRoot(entries, home).error != Some(Os(Eof))
    ensures r.error.Some? ==> r.error == WalkRoot(entries, home).error
  {
    var w := WalkRoot(entries, home);
    if w.error == Some(Os(Eof)) then RootResult(w.warnings, None) else w
  }

  /** The answer of `os.UserHomeDir()`. */
  datatype HomeLookup = HomeDir(path: string) | NoHomeDir(err: OsError)

  /** The outcome of `Illuminate`: the home-directory error, or one result per root. */
  datatype Session = Failed(err: OsError) | Scanned(home: string, results: seq<RootResult>)

  /**
    `Illuminate`: resolve the home directory once; if that fails, scan nothing
    and return the error; otherwise scan every root with that home directory.
    The roots are scanned concurrently in the source; each root's result
    depends on that root's entries and the home directory only.
   */
  function Illuminate(lookup: HomeLookup, roots: seq<seq<Entry>>): (s: Session)
    ensures lookup.NoHomeDir? ==> s == Failed(lookup.err)
    ensures lookup.HomeDir? ==> s.Scanned? && s.home == lookup.path && |s.results| == |roots|
    ensures lookup.HomeDir? ==>
              forall i :: 0 <= i < |roots| ==> s.results[i] == ScanRoot(roots[i], lookup.path)
  {
    match lookup
    case NoHomeDir(err) => Failed(err)
    case HomeDir(home) => Scanned(home, seq(|roots|, i requires 0 <= i < |roots| => ScanRoot(roots[i], home)))
  }

  /** All errors a session reports, root by root. */
  function SessionErrors(results: seq<RootResult>): (es: seq<WalkError>)
    ensures |es| <= |results|
    ensures forall e :: e in es <==> exists i :: 0 <= i < |results| && results[i].error == Some(e)
  {
    if |results| == 0 then []
    else
      var last := results[|results| - 1];
      var init := SessionErrors(results[..|results| - 1]);
      assert forall i :: 0 <= i < |results| - 1 ==> results[..|results| - 1][i] == results[i];
      init + (if last.error.Some? then [last.error.value] else [])
  }

  /** A root contributes its own error, once, and a clean root contributes nothing. */
  lemma SessionErrorsOfOne(r: RootResult)
    ensures SessionErrors([r]) == if r.error.Some? then [r.error.value] else []
  {
    assert [r][..0] == [];
  }

  /** The errors of two runs of roots are the first run's followed by the second's. */
  lemma {:induction false} SessionErrorsAppend(a: seq<RootResult>, b: seq<RootResult>)
    ensures SessionErrors(a + b) == SessionErrors(a) + SessionErrors(b)
    decreases |b|
  {
    if |b| == 0 {
      assert a + b == a;
    } else {
      var init := b[..|b| - 1];
      var last := b[|b| - 1];
      var tail := if last.error.Some? then [last.error.value] else [];
      assert (a + b)[..|a + b| - 1] == a + init;
      assert (a + b)[|a + b| - 1] == last;
      SessionErrorsAppend(a, init);
      calc {
        SessionErrors(a + b);
      ==
        SessionErrors(a + init) + tail;
      ==
        SessionErrors(a) + SessionErrors(init) + tail;
      == { SeqAssoc(SessionErrors(a), SessionErrors(init), tail); }
        SessionErrors(a) + SessionErrors(b);
      }
    }
  }
}

=== FILE: wrappers.dfy ===
/** The optional value used for Go's nil-or-error results. */
module Wrappers {

  datatype Option<+T> = None | Some(value: T)
}
